=== FILE: README.md ===
# AutoSubs transcription core in Dafny

AutoSubs produces subtitles for DaVinci Resolve. It has two halves:

- A desktop app, `AutoSubs-App/src/GlobalContext.tsx`, which:
  - supervises a local transcription server and reads its log output;
  - asks Resolve to export the timeline's audio;
  - posts the audio to the server;
  - keeps the per-timeline transcript document;
  - exports the subtitles as SRT.
- A Resolve script, `auto-subs.py`, which reads an SRT file and places one Text+ clip per subtitle on a video track.

This project models the deterministic decisions of both halves as pure functions over immutable datatypes and proves properties about them. Network, file and Resolve calls are parameters, or are left to the caller.

| module | file | what it models |
|---|---|---|
| `Options` | Options.dfy | `Option` and `Result`, and collecting a list of results |
| `Text` | Text.dfy | JavaScript `trim`, `includes`, `split`/`join`, `toString`, `padStart` and `toLowerCase`; Python `strip`; decimal digits |
| `Transcript` | Transcript.dfy | the transcript document, `updateTranscript` (partial merge) and `updateSpeaker` (relabel) |
| `LogStream` | LogStream.dfy | the stdout and stderr line handlers of the transcription server, as a state machine over the session |
| `Srt` | Srt.dfy | `formatTimecode` and `generateSrt` |
| `Orchestration` | Orchestration.dfy | the cache reuse in `exportAudio`, the error paths of `fetchTranscription`, and the sensitive-word list |
| `SrtReader` | SrtReader.dfy | the "Add Subs" handler of `auto-subs.py`: track check, file choice, SRT block parse, timestamp to frames, gap closing |
| `RoundTrip` | RoundTrip.dfy | what the Python reader makes of the file the app writes |

Conventions of the model:

- **Times** are whole milliseconds (`nat`). A live preview's empty `start`/`end` is `Time.Unset`, which reads as 0, as `Number("")` does.
- **Frame rates** are whole frames per second. Python's `round` is round-half-to-even on the exact rational `ms * fps / 1000`.
- **Source errors.** Where the source throws (a missing transcript document, a speaker index out of range, a malformed SRT line), the model returns an error value. The model does not reproduce the exception's text: the SRT reader's messages are short descriptions of the failure, and a missing document is an error without a message. Where the app shows a message (`exportAudio`, `fetchTranscription`), the model carries that message.

Notes on what the handlers do:

- **Classifier order.** The stdout and stderr handlers are separate.
  - On stderr, the timing markers (`Adjustment:`, `Aligning:`) are tested before readiness.
  - Only the empty line is discarded. A whitespace-only stderr line goes through the later tests and usually ends up logged as an error.
- **Download lines.** A `model.bin:` line without a percentage changes nothing. A plain `download` line sets the label "Downloading Model..." and carries no progress value.
- **`updateSpeaker`** always passes the (possibly unchanged) top speaker to the merge.

## Model

| member | source | states |
|---|---|---|
| LogStream.FindPreview | AutoSubs-App/src/GlobalContext.tsx:76 | the preview pattern `[dd:dd.ddd --> dd:dd.ddd]` followed by whitespace is found at its leftmost position, or is absent from the line |
| LogStream.PreviewGroupEmpty | AutoSubs-App/src/GlobalContext.tsx:76 | the captured `(.*)` group is empty exactly when only whitespace follows the bracketed range, since `\s+` also swallows line breaks |
| LogStream.PreviewTextAt | AutoSubs-App/src/GlobalContext.tsx:205-207 | at the leftmost match, a line is a preview exactly when some non-whitespace character follows the bracket, and the preview text is then the captured rest of the line without quotes, trimmed |
| LogStream.NoPreviewWithoutBracket | AutoSubs-App/src/GlobalContext.tsx:205-206 | a line without the bracketed range is never a preview |
| LogStream.BracketAloneIsNoPreview | AutoSubs-App/src/GlobalContext.tsx:205-206 | `[00:00.000 --> 00:01.500]` followed by a space and a tab matches the pattern, but its empty group makes it no preview |
| LogStream.BracketAloneIsLogged | AutoSubs-App/src/GlobalContext.tsx:204-219 | that line, having no `Progress:`, is logged to stdout as it stands |
| LogStream.RemoveQuotes | AutoSubs-App/src/GlobalContext.tsx:207 | the result holds no double quote and keeps every other character of the input, each as many times as it occurs there |
| LogStream.RemoveQuotesAppend | AutoSubs-App/src/GlobalContext.tsx:207 | quote removal works piece by piece, so the kept characters stay in their order |
| LogStream.FindPercent | AutoSubs-App/src/GlobalContext.tsx:212-214 | `(\d+)%` matches at the leftmost position where a digit run is followed by `%`, or nowhere |
| LogStream.PercentOfRendered | AutoSubs-App/src/GlobalContext.tsx:212-215 | a digit-free prefix, the decimal rendering of `n`, `%` and anything after it report exactly `n` |
| LogStream.ClassifyStdout | AutoSubs-App/src/GlobalContext.tsx:204-219 | a stdout line yields only a preview, a transcription progress, nothing, or a log entry |
| LogStream.ClassifyStderr | AutoSubs-App/src/GlobalContext.tsx:222-253 | a stderr line never yields a preview, a transcription progress or a stdout log entry |
| LogStream.PreviewPrecedence | AutoSubs-App/src/GlobalContext.tsx:204-210 | a preview wins on stdout: it prepends one subtitle with the cleaned, quote-free text and no times or speaker, keeps the earlier subtitles in order after it, and sets "Transcribing Audio..." |
| LogStream.StdoutProgress | AutoSubs-App/src/GlobalContext.tsx:211-219 | a non-preview `Progress:` line sets "Transcribing Audio... N%" from its first percentage, or changes nothing without one; any other stdout line is only logged |
| LogStream.Apply | AutoSubs-App/src/GlobalContext.tsx:204-251 | only a preview changes the subtitle list, prepending its subtitle; only readiness clears the server-loading flag; readiness lowers and diarization raises the loading flag, which nothing else touches; a line that is only logged or ignored changes nothing |
| LogStream.StreamsTouchDisjointState | AutoSubs-App/src/GlobalContext.tsx:204-253 | stdout never changes either loading flag; stderr never changes the preview list |
| LogStream.ReadyCondition | AutoSubs-App/src/GlobalContext.tsx:224-234 | readiness fires exactly for a non-empty line that has a readiness marker, no timing marker, and arrives while the server is loading; it clears the step and both flags |
| LogStream.StderrTiming | AutoSubs-App/src/GlobalContext.tsx:227-229 | a timing marker sets "Adjusting Timing..." whatever else the line holds |
| LogStream.ReadyLineAfterReady | AutoSubs-App/src/GlobalContext.tsx:230-241 | once the server is up, an `INFO:` readiness line is only logged |
| LogStream.StderrInfo | AutoSubs-App/src/GlobalContext.tsx:235-241 | an informational line that names `speechbrain` sets "Diarizing speakers..." and raises the loading flag; any other is only logged |
| LogStream.StderrDownload | AutoSubs-App/src/GlobalContext.tsx:242-249 | a `model.bin:` line with a percentage sets "Downloading Model... N%"; a plain `download` line sets "Downloading Model..." |
| LogStream.ModelBinWithoutPercent | AutoSubs-App/src/GlobalContext.tsx:242-248 | a `model.bin:` line without a percentage changes nothing and never reaches the `download` branch |
| LogStream.StderrFallback | AutoSubs-App/src/GlobalContext.tsx:222-253 | an empty stderr line does nothing; an unclassified one is logged as an error and changes nothing |
| LogStream.LoadingNeverReturns | AutoSubs-App/src/GlobalContext.tsx:230-233 | once cleared, the server-loading flag stays cleared through any run of lines |
| LogStream.ReadyAtMostOnce | AutoSubs-App/src/GlobalContext.tsx:230-233 | any run of lines on either stream produces readiness at most once, and never after the flag is cleared |
| LogStream.RunPrependsPreviews | AutoSubs-App/src/GlobalContext.tsx:209 | after a run, the previews it produced sit newest first in front of the subtitles that were there before |
| LogStream.StartUp | AutoSubs-App/src/GlobalContext.tsx:204-253 | from start-up (server loading, no subtitles), any run of lines announces readiness at most once and leaves exactly the previews it produced, newest first |
| Srt.Decompose | AutoSubs-App/src/GlobalContext.tsx:582-587 | milliseconds < 1000, seconds < 60, minutes < 60; `h*3600 + m*60 + s` is the whole-second part and, with the milliseconds, rebuilds the time |
| Srt.FormatTimecodeWidth | AutoSubs-App/src/GlobalContext.tsx:582-590 | below 100 hours the timecode is exactly 12 characters, its hour field two digits; from 100 hours on the hour field is written out in full, without a leading zero |
| Srt.HourField | AutoSubs-App/src/GlobalContext.tsx:589 | `padStart(2, '0')` gives exactly two digits for hours below 100 and leaves larger hours unpadded, with no leading zero |
| Srt.FormatTimecodeShape | AutoSubs-App/src/GlobalContext.tsx:582-590 | the timecode is `H:MM:SS,mmm`: an hour field of at least two digits that is never truncated, then fixed-width fields, each reading back as its value |
| Text.PadNatProperties | AutoSubs-App/src/GlobalContext.tsx:589 | the zero-padded digits of a number read back as the number, so nothing is cut; below `10^width` the field is exactly `width` wide |
| Text.NatToStringRoundTrip | AutoSubs-App/src/GlobalContext.tsx:600 | the decimal rendering of a number reads back as the number |
| Srt.GenerateSrtLines | AutoSubs-App/src/GlobalContext.tsx:596-606 | no subtitles give the empty file; `n` single-line subtitles give `4n` lines, block `k` being the index `k+1`, `start --> end`, the trimmed text and a blank line |
| Srt.TimecodeAvoids | AutoSubs-App/src/GlobalContext.tsx:589 | a timecode contains only digits, colons and a comma |
| Transcript.UpdateTranscript | AutoSubs-App/src/GlobalContext.tsx:628-649 | skips exactly when neither speakers nor segments are given; fails exactly when the document is missing; otherwise overwrites only the supplied fields, keeping `mark_in` and every other key |
| Transcript.UpdateTranscriptIdempotent | AutoSubs-App/src/GlobalContext.tsx:634-642 | merging the same patch into its own result writes the same document |
| Transcript.UpdateTranscriptCompose | AutoSubs-App/src/GlobalContext.tsx:634-642 | two merges in a row equal one merge of the patches combined, the later one winning field by field |
| Transcript.UpdateSpeaker | AutoSubs-App/src/GlobalContext.tsx:651-665 | fails exactly for an index outside the list; otherwise only speaker `index` changes label, color and style; the top speaker's label follows exactly when the ids match, and it is otherwise untouched; the merge receives the new speakers and top speaker |
| Transcript.UpdateSpeakerKeepsInvariant | AutoSubs-App/src/GlobalContext.tsx:651-664 | a relabel keeps the ids distinct and the top speaker's label equal to its speaker's, in memory and in the written document |
| Transcript.UpdateSpeakerKeepsSegments | AutoSubs-App/src/GlobalContext.tsx:651-664 | a relabel writes the document with its segments and mark-in unchanged |
| Orchestration.ExportAudio | AutoSubs-App/src/GlobalContext.tsx:369-400 | Resolve is asked exactly when no previous path is given; with a previous path the cached info is returned and the cache is left as it was; a fresh export fails exactly when the request is rejected, the reply is not JSON (with that error's message) or the timeline is empty (with the "open a timeline" message), and then the cache is untouched; a successful fresh export returns Resolve's reply; every success returns what the cache then holds |
| Orchestration.FetchReusesExport | AutoSubs-App/src/GlobalContext.tsx:277-300 | once a transcription has exported the audio, a later one run from the cache the first call left, with its path, sends the same request and keeps the same cache, whatever Resolve would now reply |
| Orchestration.ExportThenReuse | AutoSubs-App/src/GlobalContext.tsx:369-400 | after a successful export, calling again from the cache the first call left, with the exported path, does not ask Resolve and returns the same info |
| Orchestration.ErrorMessage | AutoSubs-App/src/GlobalContext.tsx:313-320 | a non-empty `detail` is shown as it is |
| Orchestration.ErrorMessageStatus | AutoSubs-App/src/GlobalContext.tsx:313-320 | without a usable `detail`, the message is exactly `HTTP error! status: ` followed by the status code in decimal, and it reads back as that status code |
| Orchestration.FetchTranscription | AutoSubs-App/src/GlobalContext.tsx:277-367 | the cache afterwards is the one the audio export leaves; a request is sent exactly when that export succeeds, built from the export's path, timeline and mark-in with the chosen task; a failed export shows "Transcription Error" with the export's message; the result file is handed on exactly when the answer arrives, is OK and is JSON; otherwise a "Transcription Error" is shown, carrying the rejected request's message, the error message of a non-OK answer, or the JSON parse error's message; loading always ends cleared |
| Orchestration.NoTimelineNoRequest | AutoSubs-App/src/GlobalContext.tsx:392-394 | with no timeline open, nothing is sent and the "open a timeline" error is shown |
| Orchestration.ServerErrorShown | AutoSubs-App/src/GlobalContext.tsx:313-331 | a non-OK answer shows the server's detail, or else exactly `HTTP error! status: ` followed by the status code in decimal, which reads back as that status |
| Orchestration.SensitiveWords | AutoSubs-App/src/GlobalContext.tsx:407-410 | an empty setting gives no words; otherwise one word per comma-separated part, each without commas, upper-case letters or surrounding whitespace |
| Orchestration.SensitiveWordOf | AutoSubs-App/src/GlobalContext.tsx:407-410 | word `i` is the lower-cased slice of comma-separated part `i` left once the JavaScript whitespace at both ends is stripped, and that slice starts and ends with a non-space |
| Orchestration.SensitiveWordsJoin | AutoSubs-App/src/GlobalContext.tsx:407-410 | a setting already in normal form is rebuilt by joining its word list with commas |
| Orchestration.SensitiveWordsOfJoin | AutoSubs-App/src/GlobalContext.tsx:407-410 | normalized words joined with commas are read back as the same list |
| SrtReader.TranslateNewlines | auto-subs.py:107-108 | text without `\r` is read unchanged |
| SrtReader.TranslateNewlinesNoCr | auto-subs.py:107-108 | no `\r` survives a text-mode read |
| SrtReader.TranslateNewlinesAppend | auto-subs.py:107-108 | the translation works piece by piece at any cut that does not split a `\r\n` pair |
| SrtReader.TranslateNewlinesBreaks | auto-subs.py:107-108 | a `\r\n` pair and a lone `\r` each become one `\n`, and the text before them is kept |
| SrtReader.SplitKeepEnds | auto-subs.py:108 | the lines `readlines()` returns concatenate back to the text, and none is empty |
| SrtReader.SplitKeepEndsLines | auto-subs.py:108 | every line but the last ends in `\n`, and no line holds a `\n` before its last character |
| SrtReader.PyInt | auto-subs.py:120-122 | `int()` of a non-empty digit string is its decimal value |
| SrtReader.SplitArrowSome | auto-subs.py:117 | a successful unpack of `split(" --> ")` gives the two parts around the only arrow |
| SrtReader.SplitArrowNone | auto-subs.py:117 | the unpack fails only when there is no arrow or another arrow follows the first |
| SrtReader.RoundHalfEven | auto-subs.py:122 | the result is within half a unit of `n/d`, and even on a tie |
| SrtReader.RoundHalfEvenUnique | auto-subs.py:122 | any integer within half a unit, even on ties, is the one `round` returns |
| SrtReader.TimestampMillis | auto-subs.py:120-126 | a timestamp converts only if it has exactly two colons and one comma after the second |
| RoundTrip.TimestampOfDigits | auto-subs.py:120-126 | `H:M:S,ms` with four non-empty digit fields converts to the time they spell, the last field in thousandths whatever its width |
| SrtReader.ToFrames | auto-subs.py:122-127 | the frame number is within half a frame of the exact time |
| SrtReader.ClipAt | auto-subs.py:122-127 | the clip's position, less the timeline's first frame, is within half a frame of the start time; `position + duration` is within half a frame of the end time, without that offset; the text is kept |
| SrtReader.ParseBlock | auto-subs.py:116-128 | a block parses exactly when its text line exists, its time line splits at ` --> ` and both timestamps convert; the clip then spans those two times and carries the stripped text line |
| SrtReader.ParseSrtBlocks | auto-subs.py:114-128 | the parse succeeds exactly when every block does; it then gives one clip per block, so the file had `4n` or `4n-1` lines |
| SrtReader.CloseGaps | auto-subs.py:139-142 | same number of clips, with the same positions and texts |
| SrtReader.CloseGapsRule | auto-subs.py:139-142 | a gap under 200 frames makes the clip end one frame before the next start; otherwise, and always for the last clip, the clip is kept |
| SrtReader.CloseGapsNoOverlap | auto-subs.py:139-142 | after gap closing every clip ends before the next one starts |
| SrtReader.CloseGapsIdempotent | auto-subs.py:139-142 | a second gap-closing pass changes nothing |
| SrtReader.SrtPath | auto-subs.py:99-103 | the custom path is read exactly when ticked and non-empty; otherwise `audio.srt` in the storage directory |
| SrtReader.AddSubsOutcome | auto-subs.py:94-151 | a track beyond the timeline's video tracks stops the handler first; then a missing file, a failed parse (with its message) and a missing Text+ each stop it exactly when they occur; otherwise the appended clips are the gap-closed parse of the chosen file, each on the selected track at its clip's position and ending before the next starts |
| RoundTrip.GenerateThenParse | auto-subs.py:114-128 | the script reads the app's SRT export back as exactly one clip per subtitle, in order, with its trimmed text: the position is the start frame plus the timeline's first frame, and `position + duration` is the end frame without that offset |
| RoundTrip.TimecodeReadBack | auto-subs.py:120-122 | reading a rendered timecode back yields its time in milliseconds |
| RoundTrip.SplitArrowOf | auto-subs.py:117 | `a --> b` with space-free `a` and `b` splits back into `a` and `b` |
| RoundTrip.ExportedLines | AutoSubs-App/src/GlobalContext.tsx:596-606 | `readlines()` of a non-empty export gives `4n-1` lines, block `k`'s time range at `4k+1` and text at `4k+2` |

## Left out

- React state, hooks and context wiring, and the preference store. Each handler's effect on the modelled state is given as a new state value.
- Starting and stopping the transcription server process. Only the handlers it feeds are modelled, and each `data` event is taken to be one line.
- Every `fetch` to Resolve and to the transcription server, every file read and write, and the save dialog. Their replies (`AudioInfo`, `Response`, the document read, the file contents) are parameters.
- `readTranscript` is not part of this model. A document that could not be read is `None`.
- In `auto-subs.py`:
  - the Resolve and Fusion API calls (`AppendToTimeline`, `SaveProject`, the Text+ text update that always reads track 3) and the UI;
  - the `sys.exit` paths when no project or timeline is open;
  - the transcription handler `OnGenSubs`.
- Orchestration.FetchTranscription: stops where the result file is handed to `populateSubtitles` and `addSubtitles`, because those are Resolve and file calls. They report their own failures under their own titles ("Error reading transcript", "Error Adding Subtitles"). An OK JSON answer without `result_file` is not modelled: `addSubtitles` then saves the transcript first (GlobalContext.tsx:404), and a failure there would surface as "Transcription Error".
- Transcript.UpdateSpeaker: treats speakers as values. The source copies the list shallowly (`[...speakers]`) and then sets label, color and style on the speaker object at `index` (GlobalContext.tsx:658-661). That object is shared with the previous `speakers` state, so the old list also shows the new values. The model does not show the earlier state changing.
- Orchestration.FetchReusesExport: the reuse branch returns the app's `timeline` and `markIn` state (GlobalContext.tsx:370-375), and other code writes that state too. `getTimelineInfo` sets the timeline (GlobalContext.tsx:459), and `populateSubtitles` sets the mark-in (GlobalContext.tsx:570). A successful transcription calls `populateSubtitles` itself (GlobalContext.tsx:341), `initialize` calls it with `""`, which reaches `getTimelineInfo` (GlobalContext.tsx:539, 669), and the context exposes both. The lemma, like `Orchestration.ExportThenReuse`, holds only when nothing writes those fields between the two calls.
- Orchestration.ExportThenReuse: models the audio cache as a value handed from call to call, so it has the same limit as `Orchestration.FetchReusesExport` above.
- Orchestration.ErrorMessage: a `detail` that is truthy but not a string (a number, an object) is not modelled.
- Orchestration.SensitiveWords: lower-casing covers ASCII letters only. Unicode case mapping is not modelled.
- Srt.FormatTimecode: uses whole milliseconds, because the source's floating-point `seconds % 1` is outside the model. That float remainder can floor to less than the intended value: 4.35 s gives 349 ms and 1.001 s gives 0 ms. Negative times, `NaN` from a non-numeric time, and exponent notation from `toString` of huge numbers are not modelled either.
- SrtReader.ToFrames: rounds the exact rational `ms * fps / 1000`, while the script rounds a binary float. A tie that the float does not represent exactly may round the other way. Fractional frame rates such as 23.976 are not modelled.
- LogStream.Percent: reads the digit run as an exact natural number. `parseInt` loses precision above 2^53, and from 10^21 on its result prints in exponent form in the step label (GlobalContext.tsx:212-215, 243-246).
- RoundTrip.GenerateThenParse: assumes the script decodes the UTF-8 file the app writes back to the same characters. `open(file_path, 'r')` uses the platform's default encoding, so non-ASCII text may read back differently. ASCII text reads back unchanged under the usual defaults (UTF-8, cp1252).
- RoundTrip.ExportedLines: makes the same assumption about decoding the export.
- SrtReader.PyInt: accepts an optional sign and ASCII digits. Python's underscores and non-ASCII digits are not modelled.
- The comment at auto-subs.py:141 speaks of a 10-frame gap, while the code compares with 200 frames. The model follows the code (`SrtReader.GapLimit`).

=== FILE: LogStream.dfy ===
/**
 The handlers the desktop app installs on the transcription server's stdout
 and stderr (AutoSubs-App/src/GlobalContext.tsx, `startTranscriptionServer`).
 Each line is classified, first match wins, into one event; the event then
 updates the session: the processing-step label, the loading flag, the live
 subtitle preview list and the "server still loading" flag that lets the
 readiness markers fire only once.
 */
module LogStream {
  import opened Options
  import opened Text
  import opened Transcript

  datatype Stream = Stdout | Stderr

  /** What one line does. `Silent` is a line that changes nothing and is not
      logged; the three `Log` events are logged and change nothing else. */
  datatype Event =
    | Silent
    | Preview(subtitle: Subtitle)
    | TranscribeProgress(percent: nat)
    | AdjustingTiming
    | ServerReady
    | Diarizing
    | DownloadProgress(percent: nat)
    | Downloading
    | LogStdout(line: string)
    | LogInfo(line: string)
    | LogError(line: string)

  /** The part of the app's state the handlers touch. `serverLoading` is the
      ref that gates the readiness markers. */
  datatype Session = Session(serverLoading: bool, step: string, isLoading: bool, subtitles: seq<Subtitle>)

  /** The state at start-up. */
  const Initial := Session(true, "Starting Transcription Server...", true, [])

  // ---------------------------------------------------------------------
  // The subtitle preview pattern  /\[\d{2}:\d{2}\.\d{3} --> \d{2}:\d{2}\.\d{3}\]\s+(.*)/

  /** `dd:dd.ddd` starting at `i`. */
  predicate ClockAt(s: string, i: nat)
    requires i + 9 <= |s|
  {
    && IsDigit(s[i]) && IsDigit(s[i + 1]) && s[i + 2] == ':'
    && IsDigit(s[i + 3]) && IsDigit(s[i + 4]) && s[i + 5] == '.'
    && IsDigit(s[i + 6]) && IsDigit(s[i + 7]) && IsDigit(s[i + 8])
  }

  /** Length of `[dd:dd.ddd --> dd:dd.ddd]`. */
  const BracketLength := 25

  /** The pattern matches at `i`: the bracketed range and at least one
      whitespace character after it (`(.*)` then matches whatever follows). */
  predicate PreviewAt(s: string, i: nat) {
    && i + BracketLength < |s|
    && s[i] == '['
    && ClockAt(s, i + 1)
    && s[i + 10..i + 15] == " --> "
    && ClockAt(s, i + 15)
    && s[i + 24] == ']'
    && IsJsSpace(s[i + BracketLength])
  }

  /** The leftmost match position at or after `from`, as `String.prototype.match`
      finds it. */
  function FindPreview(s: string, from: nat): (r: Option<nat>)
    ensures r.Some? ==> (from <= r.value && PreviewAt(s, r.value)
      && forall j :: from <= j < r.value ==> !PreviewAt(s, j))
    ensures r.None? ==> forall j :: from <= j ==> !PreviewAt(s, j)
    decreases |s| - from
  {
    if from + BracketLength >= |s| then None
    else if PreviewAt(s, from) then Some(from)
    else FindPreview(s, from + 1)
  }

  /** The longest prefix of `s` without a line terminator: what `.*` matches. */
  function TakeLine(s: string): (r: string)
    ensures |r| <= |s| && r == s[..|r|]
    ensures forall k :: 0 <= k < |r| ==> !IsLineTerminator(r[k])
    ensures |r| < |s| ==> IsLineTerminator(s[|r|])
  {
    if |s| == 0 || IsLineTerminator(s[0]) then [] else [s[0]] + TakeLine(s[1..])
  }

  /** Capture group 1 of the match at `i`: the greedy `\s+` takes every
      whitespace character, then `(.*)` takes the rest of the line. */
  function PreviewGroup(s: string, i: nat): string
    requires i + BracketLength <= |s|
  {
    TakeLine(DropWhile(s[i + BracketLength..], IsJsSpace))
  }

  /** `s` with every double quote removed: `replace(/"/g, '')`. */
  function RemoveQuotes(s: string): (r: string)
    ensures '"' !in r
    ensures forall c :: c in r <==> c in s && c != '"'
    ensures multiset(r) == multiset(s)['"' := 0]
  {
    if |s| == 0 then []
    else
      var rest := RemoveQuotes(s[1..]);
      assert s == [s[0]] + s[1..];
      (if s[0] == '"' then [] else [s[0]]) + rest
  }

  /** Quote removal works piece by piece, so the characters it keeps stay in
      their order: the result for `a + b` is the result for `a` followed by
      the result for `b`. */
  lemma {:induction false} RemoveQuotesAppend(a: string, b: string)
    ensures RemoveQuotes(a + b) == RemoveQuotes(a) + RemoveQuotes(b)
    decreases |a|
  {
    if |a| > 0 {
      assert (a + b)[1..] == a[1..] + b;
      RemoveQuotesAppend(a[1..], b);
    } else {
      assert a + b == b;
    }
  }

  /** The preview text, when the line is a subtitle preview: the first match's
      group with quotes removed and trimmed. A match whose group is empty is
      not taken (`match[1]` is falsy). */
  function PreviewText(line: string): Option<string> {
    match FindPreview(line, 0)
    case None => None
    case Some(i) =>
      var g := PreviewGroup(line, i);
      if g == [] then None else Some(Trim(RemoveQuotes(g)))
  }

  /** The captured group is empty exactly when nothing but whitespace follows
      the bracket: `\s+` swallows line terminators too, so `(.*)` starts at the
      first non-space character, which is never a line terminator. */
  lemma PreviewGroupEmpty(s: string, i: nat)
    requires i + BracketLength <= |s|
    ensures PreviewGroup(s, i) == [] <==> forall k :: i + BracketLength <= k < |s| ==> IsJsSpace(s[k])
  {
    var t := s[i + BracketLength..];
    var d := DropWhile(t, IsJsSpace);
    DropWhileSpec(t, IsJsSpace);
    if |d| > 0 {
      var k := i + BracketLength + |t| - |d|;
      assert s[k] == d[0];
      assert !IsLineTerminator(d[0]);
    } else {
      forall k | i + BracketLength <= k < |s|
        ensures IsJsSpace(s[k])
      {
        assert s[k] == t[k - i - BracketLength];
      }
    }
  }

  /** At the leftmost match, a line is a preview exactly when some
      non-whitespace character follows the bracket; its text is then the
      captured rest of the line without quotes, trimmed. */
  lemma PreviewTextAt(line: string, i: nat)
    requires PreviewAt(line, i) && forall j :: 0 <= j < i ==> !PreviewAt(line, j)
    ensures PreviewText(line).Some? <==> exists k :: i + BracketLength <= k < |line| && !IsJsSpace(line[k])
    ensures PreviewText(line).Some? ==> PreviewText(line).value == Trim(RemoveQuotes(PreviewGroup(line, i)))
  {
    var r := FindPreview(line, 0);
    assert r.Some?;
    assert r.value == i;
    PreviewGroupEmpty(line, i);
  }

  /** A line without the bracketed range anywhere is no preview. */
  lemma NoPreviewWithoutBracket(line: string)
    requires forall j: nat :: !PreviewAt(line, j)
    ensures PreviewText(line).None?
  {
  }

  /** A bracket followed only by whitespace matches the pattern, but its
      empty group makes the line fall through to the later tests. */
  lemma BracketAloneIsNoPreview()
    ensures PreviewText("[00:00.000 --> 00:01.500] \t").None?
  {
    var line := "[00:00.000 --> 00:01.500] \t";
    SampleBracket();
    assert line[25] == ' ' && line[26] == '\t';
    PreviewTextAt(line, 0);
  }

  /** The bracketed range of the example above matches at its start. */
  lemma SampleBracket()
    ensures PreviewAt("[00:00.000 --> 00:01.500] \t", 0)
  {
    var line := "[00:00.000 --> 00:01.500] \t";
    assert ClockAt(line, 1);
    assert ClockAt(line, 15);
    assert line[10..15] == " --> ";
  }

  /** Such a line, having no `Progress:`, is logged as it stands. */
  lemma BracketAloneIsLogged()
    ensures ClassifyStdout("[00:00.000 --> 00:01.500] \t") == LogStdout("[00:00.000 --> 00:01.500] \t")
  {
    var line := "[00:00.000 --> 00:01.500] \t";
    BracketAloneIsNoPreview();
    assert 'P' !in line;
    AbsentFirstChar(line, "Progress:");
  }

  /** A pattern whose first character does not occur in `s` is not in `s`. */
  lemma AbsentFirstChar(s: string, pat: string)
    requires |pat| > 0 && pat[0] !in s
    ensures !Contains(s, pat)
  {
    forall i | 0 <= i && i + |pat| <= |s|
      ensures !OccursAt(s, pat, i)
    {
      assert s[i..i + |pat|][0] == s[i] != pat[0];
    }
  }

  // ---------------------------------------------------------------------
  // The percentage pattern  /(\d+)%/

  /** The end of the run of digits starting at `i`. */
  function DigitRunEnd(s: string, i: nat): (e: nat)
    requires i <= |s|
    ensures i <= e <= |s| && AllDigits(s[i..e])
    ensures e < |s| ==> !IsDigit(s[e])
    decreases |s| - i
  {
    if i < |s| && IsDigit(s[i]) then
      var e := DigitRunEnd(s, i + 1);
      assert s[i..e] == [s[i]] + s[i + 1..e];
      e
    else i
  }

  /** `(\d+)%` matches starting at `i`. */
  predicate PercentAt(s: string, i: nat) {
    && i < |s|
    && IsDigit(s[i])
    && DigitRunEnd(s, i) < |s|
    && s[DigitRunEnd(s, i)] == '%'
  }

  function FindPercent(s: string, from: nat): (r: Option<nat>)
    ensures r.Some? ==> (from <= r.value && PercentAt(s, r.value)
      && forall j :: from <= j < r.value ==> !PercentAt(s, j))
    ensures r.None? ==> forall j :: from <= j ==> !PercentAt(s, j)
    decreases |s| - from
  {
    if from >= |s| then None
    else if PercentAt(s, from) then Some(from)
    else FindPercent(s, from + 1)
  }

  /** `parseInt(line.match(/(\d+)%/)[1], 10)`, when there is a match. */
  function Percent(line: string): Option<nat> {
    match FindPercent(line, 0)
    case None => None
    case Some(i) => Some(DigitsValue(line[i..DigitRunEnd(line, i)]))
  }

  // ---------------------------------------------------------------------
  // Classification

  predicate IsReadyMarker(line: string) {
    || Contains(line, "address already in use")
    || Contains(line, "Uvicorn running")
    || Contains(line, "one usage of each socket")
  }

  predicate IsAdjustMarker(line: string) {
    Contains(line, "Adjustment:") || Contains(line, "Aligning:")
  }

  predicate IsInfoMarker(line: string) {
    Contains(line, "INFO:") || Contains(line, "VAD") || Contains(line, "Adjustment")
  }

  /** The stdout handler's decision. */
  function ClassifyStdout(line: string): (e: Event)
    ensures e.Preview? || e.TranscribeProgress? || e.Silent? || e.LogStdout?
  {
    match PreviewText(line)
    case Some(text) => Preview(Subtitle(Unset, Unset, text, ""))
    case None =>
      if Contains(line, "Progress:") then
        match Percent(line)
        case Some(n) => TranscribeProgress(n)
        case None => Silent
      else LogStdout(line)
  }

  /** The stderr handler's decision; `serverLoading` is the ref's current value. */
  function ClassifyStderr(serverLoading: bool, line: string): (e: Event)
    ensures !(e.Preview? || e.TranscribeProgress? || e.LogStdout?)
  {
    if line == "" then Silent
    else if IsAdjustMarker(line) then AdjustingTiming
    else if IsReadyMarker(line) && serverLoading then ServerReady
    else if IsInfoMarker(line) then
      (if Contains(line, "speechbrain") then Diarizing else LogInfo(line))
    else if Contains(line, "model.bin:") then
      match Percent(line)
      case Some(n) => DownloadProgress(n)
      case None => Silent
    else if Contains(line, "download") then Downloading
    else LogError(line)
  }

  function Classify(s: Session, stream: Stream, line: string): Event {
    match stream
    case Stdout => ClassifyStdout(line)
    case Stderr => ClassifyStderr(s.serverLoading, line)
  }

  function PercentLabel(prefix: string, n: nat): string {
    prefix + NatToString(n) + "%"
  }

  /** The state change an event causes. Only a preview touches the subtitle
      list, only readiness clears the server-loading flag, only readiness and
      diarization touch the loading flag, and the events that are merely
      logged change nothing. */
  function Apply(s: Session, e: Event): (r: Session)
    ensures r.subtitles == if e.Preview? then [e.subtitle] + s.subtitles else s.subtitles
    ensures r.serverLoading == (s.serverLoading && !e.ServerReady?)
    ensures r.isLoading == if e.ServerReady? then false else if e.Diarizing? then true else s.isLoading
    ensures e.Silent? || e.LogStdout? || e.LogInfo? || e.LogError? ==> r == s
  {
    match e
    case Preview(sub) => s.(subtitles := [sub] + s.subtitles, step := "Transcribing Audio...")
    case TranscribeProgress(n) => s.(step := PercentLabel("Transcribing Audio... ", n))
    case AdjustingTiming => s.(step := "Adjusting Timing...")
    case ServerReady => s.(step := "", isLoading := false, serverLoading := false)
    case Diarizing => s.(step := "Diarizing speakers...", isLoading := true)
    case DownloadProgress(n) => s.(step := PercentLabel("Downloading Model... ", n))
    case Downloading => s.(step := "Downloading Model...")
    case Silent => s
    case LogStdout(_) => s
    case LogInfo(_) => s
    case LogError(_) => s
  }

  /** One line delivered on one stream. */
  function Step(s: Session, stream: Stream, line: string): Session {
    Apply(s, Classify(s, stream, line))
  }

  // ---------------------------------------------------------------------
  // Properties of one line

  /** A subtitle preview wins over everything else on stdout: it prepends one
      subtitle carrying the cleaned text and no times or speaker, keeps the
      earlier previews after it in order, and sets the step. */
  lemma PreviewPrecedence(s: Session, line: string)
    requires PreviewText(line).Some?
    ensures var s' := Step(s, Stdout, line);
      && s'.subtitles == [Subtitle(Unset, Unset, PreviewText(line).value, "")] + s.subtitles
      && s'.subtitles[1..] == s.subtitles
      && '"' !in s'.subtitles[0].text
      && s'.step == "Transcribing Audio..."
      && s'.serverLoading == s.serverLoading && s'.isLoading == s.isLoading
  {
    StripAvoids(RemoveQuotes(PreviewGroup(line, FindPreview(line, 0).value)), IsJsSpace, '"');
  }

  /** A stdout line that is not a preview and mentions `Progress:` sets the
      step to the first percentage it carries, or changes nothing without one;
      any other non-preview stdout line is only logged. */
  lemma StdoutProgress(s: Session, line: string)
    requires PreviewText(line).None?
    ensures Contains(line, "Progress:") && Percent(line).Some? ==>
      Step(s, Stdout, line) == s.(step := "Transcribing Audio... " + NatToString(Percent(line).value) + "%")
    ensures Contains(line, "Progress:") && Percent(line).None? ==> Step(s, Stdout, line) == s
    ensures !Contains(line, "Progress:") ==>
      Classify(s, Stdout, line) == LogStdout(line) && Step(s, Stdout, line) == s
  {
  }

  /** Stdout never touches the loading flags; stderr never touches the preview list. */
  lemma StreamsTouchDisjointState(s: Session, line: string)
    ensures Step(s, Stdout, line).serverLoading == s.serverLoading
    ensures Step(s, Stdout, line).isLoading == s.isLoading
    ensures Step(s, Stderr, line).subtitles == s.subtitles
  {
    ApplyKeeps(s, ClassifyStdout(line));
    ApplyKeeps(s, ClassifyStderr(s.serverLoading, line));
  }

  /** Only readiness and diarization touch the loading flags, and only a
      preview touches the subtitle list. */
  lemma ApplyKeeps(s: Session, e: Event)
    ensures !e.ServerReady? && !e.Diarizing? ==>
      Apply(s, e).serverLoading == s.serverLoading && Apply(s, e).isLoading == s.isLoading
    ensures !e.Preview? ==> Apply(s, e).subtitles == s.subtitles
  {
  }

  /** Readiness fires exactly when a readiness marker arrives on stderr while
      the server is still loading and no timing marker takes precedence; it
      clears the step and both loading flags. */
  lemma ReadyCondition(s: Session, line: string)
    ensures Classify(s, Stderr, line) == ServerReady <==>
      line != "" && !IsAdjustMarker(line) && IsReadyMarker(line) && s.serverLoading
    ensures Classify(s, Stderr, line) == ServerReady ==>
      Step(s, Stderr, line) == s.(step := "", isLoading := false, serverLoading := false)
  {
  }

  /** Once the server is known to be up, a readiness line is read by the later
      branches: a `Uvicorn running` line that starts with `INFO:` is merely logged. */
  lemma ReadyLineAfterReady(s: Session, rest: string)
    requires !s.serverLoading
    requires !Contains("INFO:" + rest, "Adjustment") && !Contains("INFO:" + rest, "Aligning:")
    requires !Contains("INFO:" + rest, "speechbrain")
    ensures Classify(s, Stderr, "INFO:" + rest) == LogInfo("INFO:" + rest)
    ensures Step(s, Stderr, "INFO:" + rest) == s
  {
    assert OccursAt("INFO:" + rest, "INFO:", 0);
    assert !Contains("INFO:" + rest, "Adjustment:") by {
      if Contains("INFO:" + rest, "Adjustment:") {
        var i :| OccursAt("INFO:" + rest, "Adjustment:", i);
        var t := "INFO:" + rest;
        assert t[i..i + 10] == t[i..i + 11][..10];
        assert OccursAt(t, "Adjustment", i);
      }
    }
  }

  /** A timing marker on stderr wins over every later test. */
  lemma StderrTiming(s: Session, line: string)
    requires line != "" && IsAdjustMarker(line)
    ensures Classify(s, Stderr, line) == AdjustingTiming
    ensures Step(s, Stderr, line) == s.(step := "Adjusting Timing...")
  {
  }

  /** Past the timing and readiness tests, an informational line that names
      `speechbrain` starts diarization and raises the loading flag again;
      any other informational line is only logged. */
  lemma StderrInfo(s: Session, line: string)
    requires line != "" && !IsAdjustMarker(line) && !(IsReadyMarker(line) && s.serverLoading)
    requires IsInfoMarker(line)
    ensures Contains(line, "speechbrain") ==>
      Step(s, Stderr, line) == s.(step := "Diarizing speakers...", isLoading := true)
    ensures !Contains(line, "speechbrain") ==>
      Classify(s, Stderr, line) == LogInfo(line) && Step(s, Stderr, line) == s
  {
  }

  /** Past the informational test, a `model.bin:` line reports its first
      percentage, and a `download` line sets the bare download label. */
  lemma StderrDownload(s: Session, line: string)
    requires line != "" && !IsAdjustMarker(line) && !(IsReadyMarker(line) && s.serverLoading)
    requires !IsInfoMarker(line)
    ensures Contains(line, "model.bin:") && Percent(line).Some? ==>
      Step(s, Stderr, line) == s.(step := "Downloading Model... " + NatToString(Percent(line).value) + "%")
    ensures !Contains(line, "model.bin:") && Contains(line, "download") ==>
      Step(s, Stderr, line) == s.(step := "Downloading Model...")
  {
  }

  /** A `model.bin:` line without a percentage changes nothing: it does not
      fall through to the generic `download` branch. */
  lemma ModelBinWithoutPercent(s: Session, line: string)
    requires Contains(line, "model.bin:") && Percent(line).None?
    requires !IsAdjustMarker(line) && !(IsReadyMarker(line) && s.serverLoading) && !IsInfoMarker(line)
    ensures Step(s, Stderr, line) == s
  {
    assert line != "" by {
      var i :| OccursAt(line, "model.bin:", i);
    }
  }

  /** An empty stderr line does nothing; an unclassified one is logged as an
      error and does nothing else. */
  lemma StderrFallback(s: Session, line: string)
    ensures line == "" ==> Classify(s, Stderr, line) == Silent
    ensures (line != "" && !IsAdjustMarker(line) && !(IsReadyMarker(line) && s.serverLoading)
      && !IsInfoMarker(line) && !Contains(line, "model.bin:") && !Contains(line, "download")) ==>
      Classify(s, Stderr, line) == LogError(line) && Step(s, Stderr, line) == s
  {
  }

  // ---------------------------------------------------------------------
  // The percentage a line reports

  /** The first digit run followed by `%` is the percentage read: a line made
      of a digit-free prefix, the rendering of `n`, `%` and anything after
      reports `n`. */
  lemma PercentOfRendered(a: string, n: nat, b: string)
    requires forall k :: 0 <= k < |a| ==> !IsDigit(a[k])
    ensures Percent(a + NatToString(n) + "%" + b) == Some(n)
  {
    var d := NatToString(n);
    var s := a + d + "%" + b;
    var e := |a| + |d|;
    assert e < |s| && s[e] == '%' && s[|a|..e] == d;
    assert DigitRunEnd(s, |a|) == e by {
      RunEndOf(s, |a|, e);
    }
    assert FindPercent(s, 0) == Some(|a|) by {
      assert PercentAt(s, |a|);
      forall j | 0 <= j < |a|
        ensures !PercentAt(s, j)
      {
        assert s[j] == a[j];
      }
    }
    PercentOfRun(s, |a|, e);
    NatToStringRoundTrip(n);
  }

  lemma PercentOfRun(s: string, i: nat, e: nat)
    requires FindPercent(s, 0) == Some(i)
    requires i <= |s| && DigitRunEnd(s, i) == e
    ensures Percent(s) == Some(DigitsValue(s[i..e]))
  {
  }

  lemma {:induction false} RunEndOf(s: string, i: nat, e: nat)
    requires i <= e < |s| && AllDigits(s[i..e]) && !IsDigit(s[e])
    ensures DigitRunEnd(s, i) == e
    decreases e - i
  {
    if i < e {
      assert IsDigit(s[i..e][0]);
      assert s[i + 1..e] == s[i..e][1..];
      RunEndOf(s, i + 1, e);
    }
  }

  // ---------------------------------------------------------------------
  // Runs of lines

  /** The events produced by delivering `lines` in order, starting in `s`. */
  function Events(s: Session, lines: seq<(Stream, string)>): seq<Event>
    decreases |lines|
  {
    if |lines| == 0 then []
    else
      var e := Classify(s, lines[0].0, lines[0].1);
      [e] + Events(Apply(s, e), lines[1..])
  }

  /** The state after delivering `lines` in order. */
  function Run(s: Session, lines: seq<(Stream, string)>): Session
    decreases |lines|
  {
    if |lines| == 0 then s else Run(Step(s, lines[0].0, lines[0].1), lines[1..])
  }

  function CountReady(events: seq<Event>): nat {
    if |events| == 0 then 0
    else (if events[0] == ServerReady then 1 else 0) + CountReady(events[1..])
  }

  /** The server-loading flag only ever goes from true to false. */
  lemma {:induction false} LoadingNeverReturns(s: Session, lines: seq<(Stream, string)>)
    requires !s.serverLoading
    ensures !Run(s, lines).serverLoading
    decreases |lines|
  {
    if |lines| > 0 {
      LoadingNeverReturns(Step(s, lines[0].0, lines[0].1), lines[1..]);
    }
  }

  /** Readiness fires at most once in any run, and never once the flag is clear. */
  lemma {:induction false} ReadyAtMostOnce(s: Session, lines: seq<(Stream, string)>)
    ensures CountReady(Events(s, lines)) <= if s.serverLoading then 1 else 0
    decreases |lines|
  {
    if |lines| > 0 {
      var e := Classify(s, lines[0].0, lines[0].1);
      var s' := Apply(s, e);
      ReadyAtMostOnce(s', lines[1..]);
      assert Events(s, lines) == [e] + Events(s', lines[1..]);
      assert CountReady(Events(s, lines)) == (if e == ServerReady then 1 else 0) + CountReady(Events(s', lines[1..]));
    }
  }

  /** Each preview prepends: after a run, the previews it produced, newest
      first, sit in front of the subtitles that were there before. */
  function Previews(events: seq<Event>): seq<Subtitle> {
    if |events| == 0 then []
    else Previews(events[1..]) + (if events[0].Preview? then [events[0].subtitle] else [])
  }

  lemma {:induction false} RunPrependsPreviews(s: Session, lines: seq<(Stream, string)>)
    ensures Run(s, lines).subtitles == Previews(Events(s, lines)) + s.subtitles
    decreases |lines|
  {
    if |lines| > 0 {
      var e := Classify(s, lines[0].0, lines[0].1);
      var s' := Apply(s, e);
      var rest := Events(s', lines[1..]);
      RunPrependsPreviews(s', lines[1..]);
      assert Run(s, lines) == Run(s', lines[1..]);
      assert Events(s, lines) == [e] + rest;
      assert Previews([e] + rest) == Previews(rest) + (if e.Preview? then [e.subtitle] else []) by {
        assert ([e] + rest)[1..] == rest;
      }
      ApplySubtitles(s, e);
    }
  }

  /** From start-up, with the server loading and no subtitles, any run of
      lines announces readiness at most once and leaves exactly the previews
      it produced, newest first. */
  lemma StartUp(lines: seq<(Stream, string)>)
    ensures CountReady(Events(Initial, lines)) <= 1
    ensures Run(Initial, lines).subtitles == Previews(Events(Initial, lines))
  {
    ReadyAtMostOnce(Initial, lines);
    RunPrependsPreviews(Initial, lines);
    assert Previews(Events(Initial, lines)) + [] == Previews(Events(Initial, lines));
  }

  lemma ApplySubtitles(s: Session, e: Event)
    ensures Apply(s, e).subtitles == (if e.Preview? then [e.subtitle] else []) + s.subtitles
  {
  }
}

=== FILE: Options.dfy ===
/** Optional values and results with an error message, used where the
    original code returns `undefined` or throws. */
module Options {

  datatype Option<+T> = None | Some(value: T)

  datatype Result<+T> = Ok(value: T) | Err(message: string)

  /** Runs a sequence of steps that each may fail, stopping at the first
      failure the way a loop stops at the first exception. */
  function Collect<T>(rs: seq<Result<T>>): Result<seq<T>> {
    if |rs| == 0 then Ok([])
    else if rs[0].Err? then Err(rs[0].message)
    else
      match Collect(rs[1..])
      case Err(e) => Err(e)
      case Ok(rest) => Ok([rs[0].value] + rest)
  }

  /** `Collect` succeeds exactly when every step does, and then yields their
      values in order; otherwise it reports the first failure. */
  lemma {:induction false} CollectSpec<T>(rs: seq<Result<T>>)
    ensures Collect(rs).Ok? <==> forall k :: 0 <= k < |rs| ==> rs[k].Ok?
    ensures Collect(rs).Ok? ==>
      && |Collect(rs).value| == |rs|
      && forall k :: 0 <= k < |rs| ==> Collect(rs).value[k] == rs[k].value
    ensures Collect(rs).Err? ==>
      exists k :: && 0 <= k < |rs| && rs[k].Err? && Collect(rs).message == rs[k].message
                  && forall j :: 0 <= j < k ==> rs[j].Ok?
  {
    if |rs| > 0 && rs[0].Ok? {
      var tail := rs[1..];
      CollectSpec(tail);
      if Collect(tail).Err? {
        var k :| 0 <= k < |tail| && tail[k].Err? && Collect(tail).message == tail[k].message
          && forall j :: 0 <= j < k ==> tail[j].Ok?;
        assert rs[k + 1] == tail[k];
        assert forall j :: 0 <= j < k + 1 ==> rs[j].Ok? by {
          forall j | 0 <= j < k + 1 ensures rs[j].Ok? {
            if j > 0 { assert rs[j] == tail[j - 1]; }
          }
        }
      } else {
        assert forall k :: 0 <= k < |tail| ==> rs[k + 1] == tail[k];
      }
    } else if |rs| > 0 {
      assert rs[0].Err?;
    }
  }

  /** Steps that all succeed collect to their values. */
  lemma CollectOk<T>(rs: seq<Result<T>>, values: seq<T>)
    requires |rs| == |values| && forall k :: 0 <= k < |rs| ==> rs[k] == Ok(values[k])
    ensures Collect(rs) == Ok(values)
  {
    CollectSpec(rs);
    assert Collect(rs).Ok?;
    assert Collect(rs).value == values;
  }
}

=== FILE: Orchestration.dfy ===
/**
 The decisions `fetchTranscription` takes around its network calls
 (AutoSubs-App/src/GlobalContext.tsx): whether `exportAudio` asks Resolve to
 export again or reuses the cached export, the refusal to transcribe without
 an open timeline, the message shown when the transcription server answers
 with an error status, and the sensitive-word list `addSubtitles` sends to
 Resolve. Replies from Resolve and from the server are parameters.
 */
module Orchestration {
  import opened Options
  import opened Text

  // ---------------------------------------------------------------------
  // exportAudio

  /** What an export yields: the audio file, the timeline it came from and the
      timeline's mark-in frame. */
  datatype AudioInfo = AudioInfo(path: string, timeline: string, markIn: int)

  /** The app state `exportAudio` reads and writes (`audioPath`, `timeline`,
      `markIn`). */
  datatype AudioCache = AudioCache(audioPath: string, timeline: string, markIn: int)

  /** The outcome of one `exportAudio` call: the info returned or the error
      thrown, the cache afterwards, and whether Resolve was asked to export
      (which also shows the "Exporting Audio..." step). */
  datatype Export = Export(result: Result<AudioInfo>, cache: AudioCache, requested: bool)

  const NoTimelineMessage := "You need to open a timeline in Resolve to start transcribing."

  function Cached(c: AudioCache): AudioInfo {
    AudioInfo(c.audioPath, c.timeline, c.markIn)
  }

  /** `exportAudio(prevAudioPath)`. A non-empty argument short-circuits to the
      cached state (the state's own `audioPath`, not the argument); otherwise
      Resolve is asked, and `reply` is what the request yields: the parsed
      answer, or the error thrown when the request is rejected or the answer
      is not JSON. An answer with an empty timeline name is an error too. */
  function ExportAudio(prevAudioPath: string, cache: AudioCache, reply: Result<AudioInfo>): (e: Export)
    ensures e.requested <==> prevAudioPath == ""
    ensures prevAudioPath != "" ==> e.result == Ok(Cached(cache)) && e.cache == cache
    ensures e.result.Err? <==> prevAudioPath == "" && (reply.Err? || reply.value.timeline == "")
    ensures e.result.Err? ==> e.cache == cache
    ensures e.result.Err? && reply.Err? ==> e.result.message == reply.message
    ensures e.result.Err? && reply.Ok? ==> e.result.message == NoTimelineMessage
    ensures e.result.Ok? ==> Cached(e.cache) == e.result.value
    ensures e.requested && e.result.Ok? ==> e.result == reply
  {
    if prevAudioPath != "" then Export(Ok(Cached(cache)), cache, false)
    else
      match reply
      case Err(msg) => Export(Err(msg), cache, true)
      case Ok(info) =>
        if info.timeline == "" then Export(Err(NoTimelineMessage), cache, true)
        else Export(Ok(info), AudioCache(info.path, info.timeline, info.markIn), true)
  }

  /** Once an export has succeeded, calling `exportAudio` with the path it
      produced does not go back to Resolve and returns the same info, so a
      second transcription of the same audio reuses the export. */
  lemma ExportThenReuse(cache: AudioCache, reply: Result<AudioInfo>, other: Result<AudioInfo>)
    requires reply.Ok? ==> reply.value.path != ""
    ensures var first := ExportAudio("", cache, reply);
      first.result.Ok? ==>
        var second := ExportAudio(first.cache.audioPath, first.cache, other);
        && !second.requested
        && second.result == first.result
        && second.cache == first.cache
  {
  }

  // ---------------------------------------------------------------------
  // Error message of a non-OK transcription response

  /** The body of a response as `response.json()` reads it: not JSON (with
      the parse error's message), or JSON with or without a string `detail`
      and carrying the `result_file` of a successful transcription. */
  datatype Body = Unparsable(error: string) | Parsed(detail: Option<string>, resultFile: string)

  const StatusPrefix := "HTTP error! status: "

  /** The server's `detail` is shown when present and non-empty (a truthy
      string); otherwise, and when the body is not JSON, the status code is. */
  function ErrorMessage(status: nat, body: Body): (m: string)
    ensures body.Parsed? && body.detail.Some? && body.detail.value != "" ==> m == body.detail.value
  {
    if body.Parsed? && body.detail.Some? && body.detail.value != "" then body.detail.value
    else StatusPrefix + NatToString(status)
  }

  /** Reads the status code back out of a default error message. */
  function StatusOf(m: string): Option<nat> {
    if |m| > |StatusPrefix| && m[..|StatusPrefix|] == StatusPrefix && AllDigits(m[|StatusPrefix|..]) then
      Some(DigitsValue(m[|StatusPrefix|..]))
    else None
  }

  /** Without a usable detail, the message carries exactly the status code:
      reading it back gives the status. */
  lemma ErrorMessageStatus(status: nat, body: Body)
    requires !(body.Parsed? && body.detail.Some? && body.detail.value != "")
    ensures ErrorMessage(status, body) == StatusPrefix + NatToString(status)
    ensures StatusOf(ErrorMessage(status, body)) == Some(status)
  {
    var m := ErrorMessage(status, body);
    assert m[|StatusPrefix|..] == NatToString(status);
    NatToStringRoundTrip(status);
  }

  // ---------------------------------------------------------------------
  // fetchTranscription

  /** The fields of the transcription request that the model decides. */
  datatype Request = Request(filePath: string, timeline: string, task: string, markIn: int)

  /** The server's answer: whether it is OK, its status and its body. */
  datatype Response = Response(ok: bool, status: nat, body: Body)

  /** An error as the app shows it. */
  datatype Notice = Notice(title: string, desc: string)

  /** What one `fetchTranscription` call leaves behind: the request sent, if
      any, the error shown, if any, the result file handed on to
      `addSubtitles`, if any, the export cache, and the loading flag. */
  datatype Run = Run(request: Option<Request>, error: Option<Notice>, resultFile: Option<string>,
                     cache: AudioCache, isLoading: bool)

  function Task(translate: bool): string {
    if translate then "translate" else "transcribe"
  }

  /** The error `fetchTranscription` shows for a failure with message `msg`. */
  function Failure(msg: string): Notice {
    Notice("Transcription Error", msg)
  }

  /** `fetchTranscription(audioPath)`: export (or reuse) the audio, post the
      request, and turn a failure at any step (the export, a rejected POST,
      an error status, an OK answer that is not JSON) into a "Transcription
      Error"; the loading flag is cleared in every case. The request is
      built from the export's info, and `response` (the answer, or the error
      the rejected POST throws) is consulted only when the request is sent. */
  function FetchTranscription(audioPath: string, cache: AudioCache, exportReply: Result<AudioInfo>,
                              translate: bool, response: Result<Response>): (r: Run)
    ensures !r.isLoading
    ensures r.error.Some? ==> r.error.value.title == "Transcription Error"
    ensures var x := ExportAudio(audioPath, cache, exportReply);
      && r.cache == x.cache
      && (r.request.Some? <==> x.result.Ok?)
      && (x.result.Err? ==> r.error == Some(Failure(x.result.message)))
      && (r.request.Some? ==>
            r.request.value == Request(x.result.value.path, x.result.value.timeline, Task(translate), x.result.value.markIn))
    ensures r.resultFile.Some? <==>
      r.request.Some? && response.Ok? && response.value.ok && response.value.body.Parsed?
    ensures r.resultFile.Some? ==> r.resultFile.value == response.value.body.resultFile
    ensures r.error.Some? <==> r.resultFile.None?
    ensures r.request.Some? && response.Err? ==> r.error == Some(Failure(response.message))
    ensures r.request.Some? && response.Ok? && !response.value.ok ==>
      r.error == Some(Failure(ErrorMessage(response.value.status, response.value.body)))
    ensures r.request.Some? && response.Ok? && response.value.ok && response.value.body.Unparsable? ==>
      r.error == Some(Failure(response.value.body.error))
    ensures r.request.Some? ==>
      && r.request.value.task == (if translate then "translate" else "transcribe")
      && r.request.value.filePath == r.cache.audioPath
      && r.request.value.timeline == r.cache.timeline
      && r.request.value.markIn == r.cache.markIn
  {
    var e := ExportAudio(audioPath, cache, exportReply);
    match e.result
    case Err(msg) => Run(None, Some(Failure(msg)), None, e.cache, false)
    case Ok(info) =>
      var request := Request(info.path, info.timeline, Task(translate), info.markIn);
      match response
      case Err(msg) => Run(Some(request), Some(Failure(msg)), None, e.cache, false)
      case Ok(answer) =>
        if !answer.ok then
          Run(Some(request), Some(Failure(ErrorMessage(answer.status, answer.body))), None, e.cache, false)
        else
          match answer.body
          case Unparsable(err) => Run(Some(request), Some(Failure(err)), None, e.cache, false)
          case Parsed(_, resultFile) => Run(Some(request), None, Some(resultFile), e.cache, false)
  }

  /** A transcription that got as far as sending its request leaves the
      export cached: transcribing again from the cache the first call left,
      with its path, sends the same request again, whatever Resolve would now
      answer, and leaves the cache as it was. */
  lemma FetchReusesExport(cache: AudioCache, exportReply: Result<AudioInfo>, translate: bool,
                          response: Result<Response>, laterReply: Result<AudioInfo>, laterResponse: Result<Response>)
    requires exportReply.Ok? ==> exportReply.value.path != ""
    ensures var first := FetchTranscription("", cache, exportReply, translate, response);
      first.request.Some? ==>
        var second := FetchTranscription(first.cache.audioPath, first.cache, laterReply, translate, laterResponse);
        && second.request == first.request
        && second.cache == first.cache
  {
    ExportThenReuse(cache, exportReply, laterReply);
  }

  /** With no audio exported yet and no timeline open in Resolve, nothing is
      sent to the server and the user is told to open a timeline. */
  lemma NoTimelineNoRequest(cache: AudioCache, exportReply: Result<AudioInfo>, translate: bool,
                            response: Result<Response>)
    requires exportReply.Ok? && exportReply.value.timeline == ""
    ensures var r := FetchTranscription("", cache, exportReply, translate, response);
      && r.request.None?
      && r.error == Some(Failure(NoTimelineMessage))
      && r.cache == cache
  {
  }

  /** A server error shows the server's detail or, failing that, the status
      code after `HTTP error! status: `. */
  lemma ServerErrorShown(audioPath: string, cache: AudioCache, exportReply: Result<AudioInfo>,
                         translate: bool, answer: Response)
    requires ExportAudio(audioPath, cache, exportReply).result.Ok?
    requires !answer.ok
    ensures var r := FetchTranscription(audioPath, cache, exportReply, translate, Ok(answer));
      && r.error.Some?
      && (answer.body.Parsed? && answer.body.detail.Some? && answer.body.detail.value != "" ==>
            r.error.value.desc == answer.body.detail.value)
      && (!(answer.body.Parsed? && answer.body.detail.Some? && answer.body.detail.value != "") ==>
            && r.error.value.desc == StatusPrefix + NatToString(answer.status)
            && StatusOf(r.error.value.desc) == Some(answer.status))
  {
    if !(answer.body.Parsed? && answer.body.detail.Some? && answer.body.detail.value != "") {
      ErrorMessageStatus(answer.status, answer.body);
    }
  }

  // ---------------------------------------------------------------------
  // Sensitive words

  /** `sensitiveWords.split(',').map(word => word.trim().toLowerCase())`, or
      no words at all when the setting is empty. */
  function SensitiveWords(setting: string): (words: seq<string>)
    ensures setting == "" <==> |words| == 0
    ensures setting != "" ==> |words| == CountChar(setting, ',') + 1
    ensures forall i :: 0 <= i < |words| ==> Normalized(words[i])
  {
    if setting == "" then []
    else
      var parts := Split(setting, ',');
      var words := seq(|parts|, i requires 0 <= i < |parts| => Normalize(parts[i]));
      assert forall i :: 0 <= i < |words| ==> Normalized(words[i]) by {
        forall i | 0 <= i < |words| ensures Normalized(words[i]) {
          NormalizeNormalizes(parts[i]);
        }
      }
      words
  }

  /** Word `i` is part `i` of the comma split with the JavaScript whitespace
      at both of its ends removed, then lower-cased: the part is blank up to
      `start` and after the word's extent, and the word's own ends are not
      blank. */
  lemma SensitiveWordOf(setting: string, i: nat) returns (start: nat)
    requires setting != "" && i < |Split(setting, ',')|
    ensures var part, w := Split(setting, ',')[i], SensitiveWords(setting)[i];
      && start + |w| <= |part|
      && w == ToLower(part[start..start + |w|])
      && (forall k :: 0 <= k < start ==> IsJsSpace(part[k]))
      && (forall k :: start + |w| <= k < |part| ==> IsJsSpace(part[k]))
      && (|w| > 0 ==> !IsJsSpace(part[start]) && !IsJsSpace(part[start + |w| - 1]))
  {
    var part := Split(setting, ',')[i];
    start := NormalizeSlice(part);
    assert SensitiveWords(setting)[i] == Normalize(part);
  }

  lemma NormalizeSlice(part: string) returns (start: nat)
    ensures var w := Normalize(part);
      && start + |w| <= |part|
      && w == ToLower(part[start..start + |w|])
      && (forall k :: 0 <= k < start ==> IsJsSpace(part[k]))
      && (forall k :: start + |w| <= k < |part| ==> IsJsSpace(part[k]))
      && (|w| > 0 ==> !IsJsSpace(part[start]) && !IsJsSpace(part[start + |w| - 1]))
  {
    start := StripSlice(part, IsJsSpace);
  }

  function Normalize(word: string): string {
    ToLower(Trim(word))
  }

  /** A word as the list holds it: no comma, no upper-case ASCII letter, and
      no whitespace at either end. */
  predicate Normalized(w: string) {
    && ',' !in w
    && (forall i :: 0 <= i < |w| ==> !('A' <= w[i] <= 'Z'))
    && (|w| > 0 ==> !IsJsSpace(w[0]) && !IsJsSpace(w[|w| - 1]))
  }

  /** Lower-casing maps whitespace to whitespace and nothing else to it, and
      never produces a comma from anything but a comma. */
  lemma LowerKeepsClass(c: char)
    ensures IsJsSpace(ToLowerChar(c)) <==> IsJsSpace(c)
    ensures ToLowerChar(c) == ',' <==> c == ','
  {
  }

  lemma NormalizeNormalizes(part: string)
    requires ',' !in part
    ensures Normalized(Normalize(part))
  {
    var t := Trim(part);
    var w := ToLower(t);
    var i := StripSlice(part, IsJsSpace);
    forall k | 0 <= k < |w| ensures w[k] != ',' {
      assert t[k] == part[i + k];
      LowerKeepsClass(t[k]);
    }
    if |w| > 0 {
      LowerKeepsClass(t[0]);
      LowerKeepsClass(t[|t| - 1]);
    }
  }

  /** A normalized word is left as it is by trimming and lower-casing. */
  lemma NormalizeFixed(w: string)
    requires Normalized(w)
    ensures Normalize(w) == w
  {
    StripFixed(w, IsJsSpace);
  }

  /** A setting already written in normal form (lower case, no spaces around
      the commas) is reproduced by joining its word list with commas. */
  lemma SensitiveWordsJoin(setting: string)
    requires setting != ""
    requires forall i :: 0 <= i < |Split(setting, ',')| ==> Normalized(Split(setting, ',')[i])
    ensures Join(SensitiveWords(setting), ",") == setting
  {
    var parts := Split(setting, ',');
    var words := SensitiveWords(setting);
    forall i | 0 <= i < |parts| ensures words[i] == parts[i] {
      NormalizeFixed(parts[i]);
    }
    assert words == parts;
    JoinSplit(setting, ',');
  }

  /** Conversely, a list of normalized words written out with commas is read
      back as the same list, unless it writes out as the empty setting. */
  lemma SensitiveWordsOfJoin(words: seq<string>)
    requires forall i :: 0 <= i < |words| ==> Normalized(words[i])
    requires Join(words, ",") != ""
    ensures SensitiveWords(Join(words, ",")) == words
  {
    assert |words| > 0;
    SplitJoin(words, ',');
    var setting := Join(words, ",");
    assert Split(setting, ',') == words;
    var r := SensitiveWords(setting);
    forall i | 0 <= i < |words| ensures r[i] == words[i] {
      NormalizeFixed(words[i]);
    }
  }
}

=== FILE: RoundTrip.dfy ===
/**
 The two halves of the caption path meet in `audio.srt`: the desktop app's
 `generateSrt` writes it and the Resolve script's "Add Subs to Timeline"
 handler reads it back. This module proves that the reader recovers every
 subtitle the writer wrote: its start and end converted to frames and its
 text stripped, as long as no subtitle text holds a line break of its own.
 */
module RoundTrip {
  import opened Options
  import opened Text
  import opened Transcript
  import opened Srt
  import opened SrtReader

  /** The clip the reader makes of one exported subtitle. */
  function Readback(sub: Subtitle, fps: nat, startFrame: int): Clip {
    ClipAt(sub.start.Millis(), sub.end.Millis(), PyStrip(Trim(sub.text)), fps, startFrame)
  }

  /** Subtitle texts without `\n` or `\r`, the characters a text-mode read
      treats as line ends. */
  predicate NoLineBreaks(subs: seq<Subtitle>) {
    forall k :: 0 <= k < |subs| ==> '\n' !in subs[k].text && '\r' !in subs[k].text
  }

  /** Reading the export back yields exactly one clip per subtitle, in order:
      positioned at its start frame plus the timeline's first frame, with a
      duration that makes `position + duration` the end frame without that
      offset (see `ClipAt`). */
  lemma {:induction false} GenerateThenParse(subs: seq<Subtitle>, fps: nat, startFrame: int)
    requires NoLineBreaks(subs)
    ensures ParseSrt(ReadLines(GenerateSrt(subs)), fps, startFrame)
         == Ok(seq(|subs|, k requires 0 <= k < |subs| => Readback(subs[k], fps, startFrame)))
  {
    var expected := seq(|subs|, k requires 0 <= k < |subs| => Readback(subs[k], fps, startFrame));
    if |subs| == 0 {
      assert BlockGroups(subs) == [];
      assert GenerateSrt(subs) == "";
      assert ReadLines("") == [];
      assert BlockResults([], fps, startFrame) == [];
      assert expected == [];
    } else {
      var rl := ExportedBlocksRead(subs);
      var rs := BlockResults(rl, fps, startFrame);
      assert |rs| == |expected| && forall k :: 0 <= k < |rs| ==> rs[k] == Ok(expected[k]) by {
        forall k | 0 <= k < |subs|
          ensures rs[k] == Ok(expected[k])
        {
          var sub := subs[k];
          ParseBlockFrom(rl, 4 * k, fps, startFrame, sub.start.Millis(), sub.end.Millis(), PyStrip(Trim(sub.text)));
        }
      }
      CollectOk(rs, expected);
    }
  }

  /** The lines `readlines()` returns for a non-empty export: `4n - 1` of
      them, block `k` occupying lines `4k` to `4k + 2` (index, time range,
      trimmed text, each with its newline) and the blank line between blocks
      at `4k + 3`. */
  lemma ExportedLines(subs: seq<Subtitle>) returns (rl: seq<string>)
    requires NoLineBreaks(subs) && |subs| > 0
    ensures rl == ReadLines(GenerateSrt(subs))
    ensures |rl| == 4 * |subs| - 1
    ensures forall k :: 0 <= k < |subs| ==>
      && rl[4 * k + 1] == TimeRange(subs[k]) + "\n"
      && rl[4 * k + 2] == Trim(subs[k].text) + "\n"
  {
    var n := |subs|;
    var lines := ExportLines(subs);
    rl := ReadJoined(lines);
    assert forall k :: 0 <= k < n ==>
      && rl[4 * k + 1] == TimeRange(subs[k]) + "\n"
      && rl[4 * k + 2] == Trim(subs[k].text) + "\n"
    by {
      forall k | 0 <= k < n
        ensures rl[4 * k + 1] == TimeRange(subs[k]) + "\n"
        ensures rl[4 * k + 2] == Trim(subs[k].text) + "\n"
      {
        LinesOfBlock(lines, rl, k, BlockLines(k, subs[k]));
      }
    }
  }

  /** Lines `4k + 1` and `4k + 2` of what `readlines()` returns are those of
      block `k`, newline included. */
  lemma LinesOfBlock(lines: seq<string>, rl: seq<string>, k: nat, block: seq<string>)
    requires 4 * k + 4 <= |lines| && lines[4 * k..4 * k + 4] == block
    requires |rl| == |lines| - 1 && forall i :: 0 <= i < |rl| ==> rl[i] == lines[i] + "\n"
    ensures rl[4 * k + 1] == block[1] + "\n" && rl[4 * k + 2] == block[2] + "\n"
  {
    assert lines[4 * k + 1] == block[1] && lines[4 * k + 2] == block[2];
  }

  /** `readlines()` of newline-joined lines free of line breaks, the last
      one empty: every line but the last, each with its newline back on. */
  lemma ReadJoined(lines: seq<string>) returns (rl: seq<string>)
    requires |lines| > 0 && lines[|lines| - 1] == ""
    requires forall k :: 0 <= k < |lines| ==> '\n' !in lines[k]
    requires '\r' !in Join(lines, "\n")
    ensures rl == ReadLines(Join(lines, "\n"))
    ensures |rl| == |lines| - 1 && forall k :: 0 <= k < |rl| ==> rl[k] == lines[k] + "\n"
  {
    SplitKeepEndsJoin(lines);
    rl := ReadLines(Join(lines, "\n"));
  }

  /** The export as newline-joined lines: four per subtitle, none holding a
      line break. */
  lemma ExportLines(subs: seq<Subtitle>) returns (lines: seq<string>)
    requires NoLineBreaks(subs)
    ensures GenerateSrt(subs) == Join(lines, "\n")
    ensures '\r' !in Join(lines, "\n")
    ensures |lines| == 4 * |subs|
    ensures |subs| > 0 ==> lines[|lines| - 1] == ""
    ensures forall k :: 0 <= k < |subs| ==> lines[4 * k..4 * k + 4] == BlockLines(k, subs[k])
    ensures forall i :: 0 <= i < |lines| ==> '\n' !in lines[i]
  {
    var groups := BlockGroups(subs);
    lines := Flatten(groups);
    FlattenFours(groups);
    JoinFlatten(groups, "\n");
    LinesAvoid(subs, '\n');
    LinesAvoid(subs, '\r');
    JoinAvoids(lines, "\n", '\r');
    if |subs| > 0 {
      LastLineEmpty(subs);
    }
  }

  /** A character no subtitle text holds and the export never writes by
      itself is in none of the exported lines. */
  lemma LinesAvoid(subs: seq<Subtitle>, c: char)
    requires Foreign(c)
    requires forall k :: 0 <= k < |subs| ==> c !in subs[k].text
    ensures var lines := Flatten(BlockGroups(subs));
      forall i :: 0 <= i < |lines| ==> c !in lines[i]
  {
    GroupsAvoid(subs, c);
    FlattenAvoids(BlockGroups(subs), c);
  }

  /** The export's last line, before the final newline is split off, is the
      empty line closing the last block. */
  lemma LastLineEmpty(subs: seq<Subtitle>)
    requires |subs| > 0
    ensures var lines := Flatten(BlockGroups(subs));
      |lines| == 4 * |subs| && lines[|lines| - 1] == ""
  {
    var groups := BlockGroups(subs);
    var n := |subs|;
    var last := groups[n - 1];
    assert |last| == 4 && last[3] == "" by {
      BlockLinesShape(n - 1, subs[n - 1]);
    }
    FlattenFours(groups);
    LastOfBlocks(Flatten(groups), n, last);
  }

  lemma BlockLinesShape(index: nat, sub: Subtitle)
    ensures |BlockLines(index, sub)| == 4 && BlockLines(index, sub)[3] == ""
  {
  }

  lemma LastOfBlocks(lines: seq<string>, n: nat, block: seq<string>)
    requires n > 0 && |lines| == 4 * n && |block| == 4
    requires lines[4 * (n - 1)..4 * n] == block
    ensures lines[|lines| - 1] == block[3]
  {
    assert lines[4 * n - 1] == lines[4 * (n - 1)..4 * n][3];
  }

  /** `readlines()` of lines joined with newlines, the last line empty: every
      line but the last, each with its newline back on. */
  lemma {:induction false} SplitKeepEndsJoin(lines: seq<string>)
    requires |lines| > 0 && lines[|lines| - 1] == ""
    requires forall k :: 0 <= k < |lines| ==> '\n' !in lines[k]
    ensures var r := SplitKeepEnds(Join(lines, "\n"));
      |r| == |lines| - 1 && forall k :: 0 <= k < |r| ==> r[k] == lines[k] + "\n"
  {
    if |lines| > 1 {
      var rest := lines[1..];
      SplitKeepEndsJoin(rest);
      var s := Join(lines, "\n");
      var l0 := lines[0];
      assert s == l0 + "\n" + Join(rest, "\n");
      assert s[..|l0|] == l0;
      IndexOfCharIs(s, '\n', |l0|);
      assert s[..|l0| + 1] == l0 + "\n";
      assert s[|l0| + 1..] == Join(rest, "\n");
    }
  }

  /** What the reader makes of the exported lines: block `k`'s time range
      line reads as the subtitle's start and end, and its text line strips to
      the subtitle's stripped text. */
  lemma ExportedBlocksRead(subs: seq<Subtitle>) returns (rl: seq<string>)
    requires NoLineBreaks(subs) && |subs| > 0
    ensures rl == ReadLines(GenerateSrt(subs))
    ensures |rl| == 4 * |subs| - 1
    ensures forall k :: 0 <= k < |subs| ==>
      && RangeReads(rl[4 * k + 1], subs[k].start.Millis(), subs[k].end.Millis())
      && PyStrip(rl[4 * k + 2]) == PyStrip(Trim(subs[k].text))
  {
    rl := ExportedLines(subs);
    forall k | 0 <= k < |subs|
      ensures RangeReads(rl[4 * k + 1], subs[k].start.Millis(), subs[k].end.Millis())
      ensures PyStrip(rl[4 * k + 2]) == PyStrip(Trim(subs[k].text))
    {
      BlockLinesRead(rl, k, subs[k]);
    }
  }

  /** The reader's view of the time range and text lines of one block. */
  lemma BlockLinesRead(rl: seq<string>, k: nat, sub: Subtitle)
    requires 4 * k + 2 < |rl|
    requires rl[4 * k + 1] == TimeRange(sub) + "\n"
    requires rl[4 * k + 2] == Trim(sub.text) + "\n"
    ensures RangeReads(rl[4 * k + 1], sub.start.Millis(), sub.end.Millis())
    ensures PyStrip(rl[4 * k + 2]) == PyStrip(Trim(sub.text))
  {
    BlockFacts(sub);
  }

  /** The time range line `rangeLine` splits at its arrow into timestamps that
      read as `startMs` and `endMs`. */
  predicate RangeReads(rangeLine: string, startMs: int, endMs: int) {
    match SplitArrow(PyStrip(rangeLine))
    case None => false
    case Some((a, b)) => TimestampMillis(a) == Ok(startMs) && TimestampMillis(b) == Ok(endMs)
  }

  /** What the reader makes of the time range and text lines of one block. */
  lemma BlockFacts(sub: Subtitle)
    ensures RangeReads(TimeRange(sub) + "\n", sub.start.Millis(), sub.end.Millis())
    ensures PyStrip(Trim(sub.text) + "\n") == PyStrip(Trim(sub.text))
  {
    TimeRangeLine(sub);
    TextLine(sub.text);
    TimecodeReadBack(sub.start.Millis());
    TimecodeReadBack(sub.end.Millis());
  }

  /** The time range line, newline included, splits at its arrow into the two
      timecodes. */
  lemma TimeRangeLine(sub: Subtitle)
    ensures SplitArrow(PyStrip(TimeRange(sub) + "\n"))
         == Some((FormatTimecode(sub.start.Millis()), FormatTimecode(sub.end.Millis())))
  {
    var a, b := FormatTimecode(sub.start.Millis()), FormatTimecode(sub.end.Millis());
    StripAppend(TimeRange(sub), '\n', IsPySpace);
    TimeRangeUnstripped(sub);
    TimecodeAvoids(sub.start.Millis(), ' ');
    TimecodeAvoids(sub.end.Millis(), ' ');
    SplitArrowOf(a, b);
  }

  /** Python's strip of a text line drops its newline. */
  lemma TextLine(text: string)
    ensures PyStrip(Trim(text) + "\n") == PyStrip(Trim(text))
  {
    StripAppend(Trim(text), '\n', IsPySpace);
  }

  /** `ParseBlock` once the time range and the text are known. */
  lemma ParseBlockFrom(lines: seq<string>, i: nat, fps: nat, startFrame: int,
                       startMs: int, endMs: int, text: string)
    requires i + 2 < |lines|
    requires RangeReads(lines[i + 1], startMs, endMs)
    requires PyStrip(lines[i + 2]) == text
    ensures ParseBlock(lines, i, fps, startFrame) == Ok(ClipAt(startMs, endMs, text, fps, startFrame))
  {
  }

  /** The time range starts and ends with a digit, so Python's strip keeps it whole. */
  lemma TimeRangeUnstripped(sub: Subtitle)
    ensures PyStrip(TimeRange(sub)) == TimeRange(sub)
  {
    TimecodeDigitEnds(sub.start.Millis());
    TimecodeDigitEnds(sub.end.Millis());
    DigitEndsUnstripped(FormatTimecode(sub.start.Millis()), FormatTimecode(sub.end.Millis()));
  }

  lemma DigitEndsUnstripped(a: string, b: string)
    requires |a| > 0 && IsDigit(a[0]) && |b| > 0 && IsDigit(b[|b| - 1])
    ensures PyStrip(a + " --> " + b) == a + " --> " + b
  {
    var r := a + " --> " + b;
    assert r[0] == a[0] && r[|r| - 1] == b[|b| - 1];
    StripFixed(r, IsPySpace);
  }

  lemma TimecodeDigitEnds(t: nat)
    ensures var tc := FormatTimecode(t);
      |tc| > 0 && IsDigit(tc[0]) && IsDigit(tc[|tc| - 1])
  {
    FormatTimecodeShape(t);
    var d := Decompose(t);
    var tc := FormatTimecode(t);
    assert tc[0] == PadNat(d.hours, 2)[0];
  }

  /** Splitting `a --> b` at the arrow gives `a` and `b` back when neither
      holds a space. */
  lemma SplitArrowOf(a: string, b: string)
    requires ' ' !in a && ' ' !in b
    ensures SplitArrow(a + Arrow + b) == Some((a, b))
  {
    var s := a + Arrow + b;
    assert OccursAt(s, Arrow, |a|);
    var i := Find(s, Arrow, 0).value;
    assert s[i] == ' ';
    assert i == |a|;
    assert s[..i] == a && s[i + |Arrow|..] == b;
    assert !Contains(b, Arrow) by {
      forall j ensures !OccursAt(b, Arrow, j) {
        if 0 <= j && j + |Arrow| <= |b| {
          assert b[j..j + |Arrow|][0] == b[j];
        }
      }
    }
  }

  /** Reading a timecode back as lines 120-122 do recovers the time. */
  lemma TimecodeReadBack(t: nat)
    ensures TimestampMillis(FormatTimecode(t)) == Ok(t)
  {
    var d := Decompose(t);
    var hh, mm, ss, ms := PadNat(d.hours, 2), PadNat(d.minutes, 2), PadNat(d.seconds, 2), PadNat(d.millis, 3);
    var tc := FormatTimecode(t);
    var tail := ss + "," + ms;
    assert Split(tc, ':') == [hh, mm, tail] && Split(tail, ',') == [ss, ms] by {
      assert tc == hh + ":" + mm + ":" + ss + "," + ms;
      FieldsSplit(hh, mm, ss, ms);
    }
    assert PyInt(hh) == Some(d.hours) by { PadNatProperties(d.hours, 2); }
    assert PyInt(mm) == Some(d.minutes) by { PadNatProperties(d.minutes, 2); }
    assert PyInt(ss) == Some(d.seconds) by { PadNatProperties(d.seconds, 2); }
    assert PyInt(ms) == Some(d.millis) by { PadNatProperties(d.millis, 3); }
    ClockMillis(t);
    TimestampOfFields(tc, hh, mm, tail, ss, ms, d.hours, d.minutes, d.seconds, d.millis, t);
  }

  /** Any `H:M:S,ms` made of four non-empty digit fields converts to the
      time they spell, the last field counted in thousandths whatever its
      width (`0:0:1,5` is 1005 ms). */
  lemma TimestampOfDigits(hh: string, mm: string, ss: string, ms: string)
    requires AllDigits(hh) && AllDigits(mm) && AllDigits(ss) && AllDigits(ms)
    requires |hh| > 0 && |mm| > 0 && |ss| > 0 && |ms| > 0
    ensures TimestampMillis(hh + ":" + mm + ":" + ss + "," + ms)
      == Ok(Millis(DigitsValue(hh), DigitsValue(mm), DigitsValue(ss), DigitsValue(ms)))
  {
    var tc := hh + ":" + mm + ":" + ss + "," + ms;
    FieldsSplit(hh, mm, ss, ms);
    var h, m, sec, milli := DigitsValue(hh), DigitsValue(mm), DigitsValue(ss), DigitsValue(ms);
    TimestampOfFields(tc, hh, mm, ss + "," + ms, ss, ms, h, m, sec, milli, Millis(h, m, sec, milli));
  }

  lemma ClockMillis(t: nat)
    ensures var d := Decompose(t);
      Millis(d.hours, d.minutes, d.seconds, d.millis) == t
  {
  }

  /** `TimestampMillis` once the splits and the `int()` calls are known. */
  lemma TimestampOfFields(tc: string, hh: string, mm: string, tail: string, ss: string, ms: string,
                          h: int, m: int, sec: int, milli: int, t: int)
    requires Split(tc, ':') == [hh, mm, tail] && Split(tail, ',') == [ss, ms]
    requires PyInt(hh) == Some(h) && PyInt(mm) == Some(m) && PyInt(ss) == Some(sec) && PyInt(ms) == Some(milli)
    requires Millis(h, m, sec, milli) == t
    ensures TimestampMillis(tc) == Ok(t)
  {
  }

  /** Splitting `H:M:S,ms` made of digit fields at the colons, then the
      last part at the comma, gives the four fields. */
  lemma FieldsSplit(hh: string, mm: string, ss: string, ms: string)
    requires AllDigits(hh) && AllDigits(mm) && AllDigits(ss) && AllDigits(ms)
    ensures Split(hh + ":" + mm + ":" + ss + "," + ms, ':') == [hh, mm, ss + "," + ms]
    ensures Split(ss + "," + ms, ',') == [ss, ms]
  {
    var tail := ss + [','] + ms;
    assert ':' !in hh && ':' !in mm && ':' !in tail by {
      DigitsAvoid(hh, ':');
      DigitsAvoid(mm, ':');
      DigitsAvoid(ss, ':');
      DigitsAvoid(ms, ':');
    }
    assert hh + ":" + mm + ":" + ss + "," + ms == hh + [':'] + mm + [':'] + tail;
    SplitThree(hh, mm, tail, ':');
    assert Split(tail, ',') == [ss, ms] by {
      DigitsAvoid(ss, ',');
      DigitsAvoid(ms, ',');
      SplitTwo(ss, ms, ',');
    }
  }
}

=== FILE: Srt.dfy ===
/**
 Caption export in the desktop app (AutoSubs-App/src/GlobalContext.tsx):
 `formatTimecode` renders a time as `HH:MM:SS,mmm` and `generateSrt` renders
 the subtitle list as numbered SRT blocks. Times are whole milliseconds here;
 the source takes a number of seconds and floors its fractional part.
 */
module Srt {
  import opened Text
  import opened Transcript

  /** The fields `formatTimecode` computes. */
  datatype Clock = Clock(hours: nat, minutes: nat, seconds: nat, millis: nat)

  /** The floor-based decomposition of a time `t` (in milliseconds) into hours,
      minutes, seconds and milliseconds. Hours are not bounded. */
  function Decompose(t: nat): (c: Clock)
    ensures c.millis < 1000 && c.seconds < 60 && c.minutes < 60
    ensures c.hours * 3600 + c.minutes * 60 + c.seconds == t / 1000
    ensures (c.hours * 3600 + c.minutes * 60 + c.seconds) * 1000 + c.millis == t
  {
    var total := t / 1000;
    Clock(total / 3600, (total / 60) % 60, total % 60, t % 1000)
  }

  /** `formatTimecode(seconds)`: hours, minutes and seconds padded to at least
      two digits, milliseconds to at least three. */
  function FormatTimecode(t: nat): string {
    var c := Decompose(t);
    PadNat(c.hours, 2) + ":" + PadNat(c.minutes, 2) + ":" + PadNat(c.seconds, 2) + "," + PadNat(c.millis, 3)
  }

  /** The shape of a rendered timecode: an hour field that reads back as the
      whole hours (never truncated), then `:MM:SS,mmm` with fixed-width
      fields that read back as the minutes, seconds and milliseconds. */
  lemma FormatTimecodeShape(t: nat)
    ensures IsTimecode(FormatTimecode(t), t / 3600000, (t / 60000) % 60, (t / 1000) % 60, t % 1000)
  {
    var c := Decompose(t);
    var hh, mm, ss, ms := PadNat(c.hours, 2), PadNat(c.minutes, 2), PadNat(c.seconds, 2), PadNat(c.millis, 3);
    assert Pow10(2) == 100 && Pow10(3) == 1000;
    PadNatProperties(c.hours, 2);
    PadNatProperties(c.minutes, 2);
    PadNatProperties(c.seconds, 2);
    PadNatProperties(c.millis, 3);
    ConcatShape(hh, mm, ss, ms);
    HoursOf(t);
    MinutesOf(t);
  }

  /** The hour field is exactly two digits below 100 hours (`HH:MM:SS,mmm`,
      twelve characters) and carries no leading zero from 100 hours on, so
      together with `FormatTimecodeShape` the rendering is fully determined. */
  lemma FormatTimecodeWidth(t: nat)
    ensures t < 360000000 ==> |FormatTimecode(t)| == 12
    ensures t >= 360000000 ==> FormatTimecode(t)[0] != '0'
  {
    var c := Decompose(t);
    var hh := PadNat(c.hours, 2);
    assert Pow10(2) == 100 && Pow10(3) == 1000;
    PadNatProperties(c.minutes, 2);
    PadNatProperties(c.seconds, 2);
    PadNatProperties(c.millis, 3);
    ConcatShape(hh, PadNat(c.minutes, 2), PadNat(c.seconds, 2), PadNat(c.millis, 3));
    HoursOf(t);
    HourField(c.hours);
  }

  /** `padStart(2, '0')` on the hours: exactly two digits below 100, the
      plain rendering without a leading zero from 100 on. */
  lemma HourField(h: nat)
    ensures h < 100 ==> |PadNat(h, 2)| == 2
    ensures h >= 100 ==> PadNat(h, 2)[0] != '0'
  {
    assert Pow10(2) == 100;
    PadNatProperties(h, 2);
    if h >= 100 {
      assert |NatToString(h)| > 1;
    }
  }

  /** `r` reads as `H:MM:SS,mmm` with the given field values, `H` having at
      least two digits. */
  predicate IsTimecode(r: string, h: nat, m: nat, s: nat, ms: nat) {
    && |r| >= 12
    && r[|r| - 10] == ':' && r[|r| - 7] == ':' && r[|r| - 4] == ','
    && AllDigits(r[..|r| - 10]) && DigitsValue(r[..|r| - 10]) == h
    && AllDigits(r[|r| - 9..|r| - 7]) && DigitsValue(r[|r| - 9..|r| - 7]) == m
    && AllDigits(r[|r| - 6..|r| - 4]) && DigitsValue(r[|r| - 6..|r| - 4]) == s
    && AllDigits(r[|r| - 3..]) && DigitsValue(r[|r| - 3..]) == ms
  }

  lemma ConcatShape(hh: string, mm: string, ss: string, ms: string)
    requires |mm| == 2 && |ss| == 2 && |ms| == 3
    ensures var r := hh + ":" + mm + ":" + ss + "," + ms;
      && |r| == |hh| + 10
      && r[..|hh|] == hh && r[|hh|] == ':'
      && r[|hh| + 1..|hh| + 3] == mm && r[|hh| + 3] == ':'
      && r[|hh| + 4..|hh| + 6] == ss && r[|hh| + 6] == ','
      && r[|hh| + 7..] == ms
  {
  }

  lemma HoursOf(t: nat)
    ensures t / 1000 / 3600 == t / 3600000
  {
    var q := t / 1000;
    var h := q / 3600;
    assert q == h * 3600 + q % 3600;
    assert t == q * 1000 + t % 1000;
    assert t == h * 3600000 + ((q % 3600) * 1000 + t % 1000);
  }

  lemma MinutesOf(t: nat)
    ensures t / 1000 / 60 == t / 60000
  {
    var q := t / 1000;
    var m := q / 60;
    assert q == m * 60 + q % 60;
    assert t == q * 1000 + t % 1000;
    assert t == m * 60000 + ((q % 60) * 1000 + t % 1000);
  }

  /** The time range line of one subtitle. */
  function TimeRange(sub: Subtitle): string {
    FormatTimecode(sub.start.Millis()) + " --> " + FormatTimecode(sub.end.Millis())
  }

  /** The four lines of block number `index` (zero-based): the one-based
      index, the time range, the trimmed text and an empty line. */
  function BlockLines(index: nat, sub: Subtitle): seq<string> {
    [NatToString(index + 1), TimeRange(sub), Trim(sub.text), ""]
  }

  /** The line groups of the export, one per subtitle. */
  function BlockGroups(subs: seq<Subtitle>): (g: seq<seq<string>>)
    ensures |g| == |subs| && forall k :: 0 <= k < |subs| ==> g[k] == BlockLines(k, subs[k])
  {
    seq(|subs|, k requires 0 <= k < |subs| => BlockLines(k, subs[k]))
  }

  /** `generateSrt()`: each block's lines joined with newlines, and the blocks
      joined with newlines. */
  function GenerateSrt(subs: seq<Subtitle>): string {
    Join(JoinEach(BlockGroups(subs), "\n"), "\n")
  }

  /** No subtitle text contains a line break of its own. */
  predicate SingleLineTexts(subs: seq<Subtitle>) {
    forall k :: 0 <= k < |subs| ==> '\n' !in subs[k].text
  }

  /** Block structure of the export: for `n > 0` subtitles, splitting at
      newlines gives `4n` lines, and lines `4k` to `4k + 3` are the one-based
      index `k + 1` in decimal, the time range, the trimmed text and an empty
      line, so consecutive blocks are separated by a blank line. */
  lemma GenerateSrtLines(subs: seq<Subtitle>)
    requires SingleLineTexts(subs)
    ensures |subs| == 0 ==> GenerateSrt(subs) == ""
    ensures |subs| > 0 ==> |Split(GenerateSrt(subs), '\n')| == 4 * |subs|
    ensures |subs| > 0 ==> forall k :: 0 <= k < |subs| ==>
      Split(GenerateSrt(subs), '\n')[4 * k..4 * k + 4] == BlockLines(k, subs[k])
  {
    var groups := BlockGroups(subs);
    if |subs| > 0 {
      JoinFlatten(groups, "\n");
      var lines := Flatten(groups);
      FlattenFours(groups);
      GroupsAvoid(subs, '\n');
      FlattenAvoids(groups, '\n');
      SplitJoin(lines, '\n');
    }
  }

  /** Cutting a flattened list of four-line groups back into fours. */
  lemma {:induction false} FlattenFours(groups: seq<seq<string>>)
    requires forall k :: 0 <= k < |groups| ==> |groups[k]| == 4
    ensures |Flatten(groups)| == 4 * |groups|
    ensures forall k :: 0 <= k < |groups| ==> Flatten(groups)[4 * k..4 * k + 4] == groups[k]
    decreases |groups|
  {
    if |groups| > 0 {
      var rest := groups[1..];
      FlattenFours(rest);
      var f := Flatten(groups);
      assert f == groups[0] + Flatten(rest);
      forall k | 0 <= k < |groups|
        ensures f[4 * k..4 * k + 4] == groups[k]
      {
        if k > 0 {
          assert f[4 * k..4 * k + 4] == Flatten(rest)[4 * (k - 1)..4 * (k - 1) + 4];
        } else {
          assert f[..4] == groups[0];
        }
      }
    }
  }

  /** A character the export never writes by itself: not a digit and none of
      the punctuation of a time range. */
  predicate Foreign(c: char) {
    !IsDigit(c) && c != ':' && c != ',' && c != ' ' && c != '-' && c != '>'
  }

  /** Such a character appears in the export's lines only if some subtitle
      text holds it. */
  lemma GroupsAvoid(subs: seq<Subtitle>, c: char)
    requires Foreign(c)
    requires forall k :: 0 <= k < |subs| ==> c !in subs[k].text
    ensures var groups := BlockGroups(subs);
      forall k, j :: 0 <= k < |groups| && 0 <= j < |groups[k]| ==> c !in groups[k][j]
  {
    var groups := BlockGroups(subs);
    forall k, j | 0 <= k < |groups| && 0 <= j < |groups[k]|
      ensures c !in groups[k][j]
    {
      BlockAvoids(k, subs[k], c);
    }
  }

  lemma BlockAvoids(k: nat, sub: Subtitle, c: char)
    requires Foreign(c) && c !in sub.text
    ensures c !in NatToString(k + 1)
    ensures c !in TimeRange(sub)
    ensures c !in Trim(sub.text)
  {
    DigitsAvoid(NatToString(k + 1), c);
    TimecodeAvoids(sub.start.Millis(), c);
    TimecodeAvoids(sub.end.Millis(), c);
    StripAvoids(sub.text, IsJsSpace, c);
  }

  lemma DigitsAvoid(s: string, c: char)
    requires AllDigits(s) && !IsDigit(c)
    ensures c !in s
  {
  }

  /** A timecode is made of digits, colons and one comma. */
  lemma TimecodeAvoids(t: nat, c: char)
    requires !IsDigit(c) && c != ':' && c != ','
    ensures c !in FormatTimecode(t)
  {
    var d := Decompose(t);
    DigitsAvoid(PadNat(d.hours, 2), c);
    DigitsAvoid(PadNat(d.minutes, 2), c);
    DigitsAvoid(PadNat(d.seconds, 2), c);
    DigitsAvoid(PadNat(d.millis, 3), c);
  }
}

=== FILE: SrtReader.dfy ===
/**
 The "Add Subs to Timeline" handler of the Resolve script (auto-subs.py,
 `OnAddSubs`): the selected-track check, the choice of SRT file, the reading
 of the file in four-line blocks, the conversion of `H:M:S,ms` timestamps to
 timeline frames, and the rule that stretches a clip to meet the next one
 when the gap between them is short. The Resolve API calls that place the
 clips are left to the caller: the handler's result is the list of clips it
 would append.

 Time is exact here: a timestamp is a whole number of milliseconds and the
 frame rate a whole number of frames per second, so `round(seconds * fps)` is
 Python's round-half-to-even applied to the rational `ms * fps / 1000`.
 */
module SrtReader {
  import opened Options
  import opened Text

  // ---------------------------------------------------------------------
  // Python primitives

  /** Reading a file in text mode: `\r\n` and a lone `\r` become `\n`. */
  function TranslateNewlines(s: string): (r: string)
    ensures '\r' !in s ==> r == s
  {
    if |s| == 0 then []
    else if s[0] == '\r' then
      (if |s| > 1 && s[1] == '\n' then "\n" + TranslateNewlines(s[2..]) else "\n" + TranslateNewlines(s[1..]))
    else [s[0]] + TranslateNewlines(s[1..])
  }

  /** No `\r` survives the translation. */
  lemma {:induction false} TranslateNewlinesNoCr(s: string)
    ensures '\r' !in TranslateNewlines(s)
    decreases |s|
  {
    if |s| == 0 {
    } else if s[0] == '\r' && |s| > 1 && s[1] == '\n' {
      TranslateNewlinesNoCr(s[2..]);
    } else {
      TranslateNewlinesNoCr(s[1..]);
    }
  }

  /** The translation works piece by piece at any cut that does not split a
      `\r\n` pair. */
  lemma {:induction false} TranslateNewlinesAppend(a: string, b: string)
    requires |a| == 0 || a[|a| - 1] != '\r'
    ensures TranslateNewlines(a + b) == TranslateNewlines(a) + TranslateNewlines(b)
    decreases |a|
  {
    if |a| == 0 {
      assert a + b == b;
    } else if a[0] != '\r' {
      TranslateNewlinesStep(a, b, 1, [a[0]]);
    } else if a[1] == '\n' {
      TranslateNewlinesStep(a, b, 2, "\n");
    } else {
      TranslateNewlinesStep(a, b, 1, "\n");
    }
  }

  /** One step of the induction above: `a` starts with `n` characters that
      translate to `head` whatever follows them. */
  lemma {:induction false} TranslateNewlinesStep(a: string, b: string, n: nat, head: string)
    requires 0 < n <= |a| && a[|a| - 1] != '\r'
    requires TranslateNewlines(a) == head + TranslateNewlines(a[n..])
    requires TranslateNewlines(a + b) == head + TranslateNewlines((a + b)[n..])
    ensures TranslateNewlines(a + b) == TranslateNewlines(a) + TranslateNewlines(b)
    decreases |a|, 0
  {
    DropAppend(a, b, n);
    TranslateNewlinesAppend(a[n..], b);
    ConcatAssoc(head, TranslateNewlines(a[n..]), TranslateNewlines(b));
  }

  /** A `\r\n` pair and a lone `\r` each become one `\n`; text without `\r`
      is kept. */
  lemma TranslateNewlinesBreaks(a: string, b: string)
    requires '\r' !in a
    ensures TranslateNewlines(a + "\r\n" + b) == a + "\n" + TranslateNewlines(b)
    ensures |b| == 0 || b[0] != '\n' ==> TranslateNewlines(a + "\r" + b) == a + "\n" + TranslateNewlines(b)
  {
    TranslateNewlinesPair(a, b);
    if |b| == 0 || b[0] != '\n' {
      TranslateNewlinesLone(a, b);
    }
  }

  /** Text without `\r` passes through unchanged in front of anything. */
  lemma TranslateNewlinesPlain(a: string, b: string)
    requires '\r' !in a
    ensures TranslateNewlines(a + b) == a + TranslateNewlines(b)
  {
    assert |a| == 0 || a[|a| - 1] in a;
    TranslateNewlinesAppend(a, b);
  }

  lemma TranslateNewlinesPair(a: string, b: string)
    requires '\r' !in a
    ensures TranslateNewlines(a + "\r\n" + b) == a + "\n" + TranslateNewlines(b)
  {
    var tail := "\r\n" + b;
    assert tail[2..] == b;
    TranslateNewlinesPlain(a, tail);
    assert a + "\r\n" + b == a + tail;
  }

  lemma TranslateNewlinesLone(a: string, b: string)
    requires '\r' !in a && (|b| == 0 || b[0] != '\n')
    ensures TranslateNewlines(a + "\r" + b) == a + "\n" + TranslateNewlines(b)
  {
    var tail := "\r" + b;
    assert tail[1..] == b;
    TranslateNewlinesPlain(a, tail);
    assert a + "\r" + b == a + tail;
  }

  /** `readlines()` on translated text: each line keeps its `\n`, only the
      last may lack one, and no empty line is produced at the end. */
  function SplitKeepEnds(s: string): (lines: seq<string>)
    ensures Flatten(lines) == s
    ensures forall k :: 0 <= k < |lines| ==> |lines[k]| > 0
    decreases |s|
  {
    if |s| == 0 then []
    else if '\n' !in s then [s]
    else
      var i := IndexOfChar(s, '\n');
      assert s == s[..i + 1] + s[i + 1..];
      [s[..i + 1]] + SplitKeepEnds(s[i + 1..])
  }

  /** The shape of `readlines()` output: no line is empty, every line but the
      last ends in `\n`, and no line holds a `\n` before its final character. */
  predicate LineShaped(lines: seq<string>) {
    && (forall k :: 0 <= k < |lines| ==> |lines[k]| > 0)
    && (forall k :: 0 <= k < |lines| - 1 ==> lines[k][|lines[k]| - 1] == '\n')
    && (forall k :: 0 <= k < |lines| ==> '\n' !in lines[k][..|lines[k]| - 1])
  }

  lemma {:induction false} SplitKeepEndsLines(s: string)
    ensures LineShaped(SplitKeepEnds(s))
    decreases |s|
  {
    if |s| > 0 && '\n' in s {
      var i := IndexOfChar(s, '\n');
      var line := s[..i + 1];
      assert line[..|line| - 1] == s[..i] && line[|line| - 1] == s[i];
      SplitKeepEndsLines(s[i + 1..]);
      LinesCons(line, SplitKeepEnds(s[i + 1..]));
    }
  }

  lemma LinesCons(line: string, rest: seq<string>)
    requires |line| > 0 && line[|line| - 1] == '\n' && '\n' !in line[..|line| - 1]
    requires LineShaped(rest)
    ensures LineShaped([line] + rest)
  {
    var lines := [line] + rest;
    forall k | 0 < k < |lines|
      ensures lines[k] == rest[k - 1]
    {
    }
  }

  /** `f.readlines()` for a file opened with `open(path, 'r')`. */
  function ReadLines(content: string): seq<string> {
    SplitKeepEnds(TranslateNewlines(content))
  }

  /** Python's `int(s)` on a decimal string: surrounding whitespace and one
      sign allowed, then one or more ASCII digits. */
  function PyInt(s: string): (r: Option<int>)
    ensures AllDigits(s) && |s| > 0 ==> r == Some(DigitsValue(s) as int)
  {
    var t := PyStrip(s);
    if |t| > 0 && (t[0] == '+' || t[0] == '-') then
      var digits := t[1..];
      if |digits| > 0 && AllDigits(digits) then
        Some(if t[0] == '-' then -(DigitsValue(digits) as int) else DigitsValue(digits))
      else None
    else if |t| > 0 && AllDigits(t) then
      Some(DigitsValue(t))
    else
      assert AllDigits(s) && |s| > 0 ==> t == s by {
        if AllDigits(s) && |s| > 0 { DigitsUnstripped(s); }
      }
      None
  }

  /** Digits are not whitespace, so stripping a digit string leaves it whole. */
  lemma DigitsUnstripped(s: string)
    requires AllDigits(s) && |s| > 0
    ensures PyStrip(s) == s
  {
    assert !IsPySpace(s[0]) && !IsPySpace(s[|s| - 1]);
    StripFixed(s, IsPySpace);
  }

  /** The leftmost occurrence of `pat` in `s`, as `str.find` returns it. */
  function Find(s: string, pat: string, from: nat): (r: Option<nat>)
    ensures r.Some? ==> (from <= r.value && OccursAt(s, pat, r.value)
      && forall j :: from <= j < r.value ==> !OccursAt(s, pat, j))
    ensures r.None? ==> forall j :: from <= j ==> !OccursAt(s, pat, j)
    decreases |s| - from
  {
    if from + |pat| > |s| then None
    else if OccursAt(s, pat, from) then Some(from)
    else Find(s, pat, from + 1)
  }

  const Arrow := " --> "

  /** `a, b = s.split(" --> ")`: succeeds exactly when the split yields two
      parts, that is, when nothing after the first arrow holds another one. */
  function SplitArrow(s: string): Option<(string, string)> {
    match Find(s, Arrow, 0)
    case None => None
    case Some(i) =>
      var rest := s[i + |Arrow|..];
      if Contains(rest, Arrow) then None else Some((s[..i], rest))
  }

  /** A successful split gives the parts around the one arrow, neither of
      which holds an arrow. */
  lemma SplitArrowSome(s: string)
    requires SplitArrow(s).Some?
    ensures var (a, b) := SplitArrow(s).value;
      s == a + Arrow + b && !Contains(a, Arrow) && !Contains(b, Arrow)
  {
    var i := Find(s, Arrow, 0).value;
    assert s == s[..i] + Arrow + s[i + |Arrow|..];
    if Contains(s[..i], Arrow) {
      var j :| OccursAt(s[..i], Arrow, j);
      assert s[..i][j..j + |Arrow|] == s[j..j + |Arrow|];
      assert OccursAt(s, Arrow, j);
    }
  }

  /** The split fails exactly when there is no arrow, or when another arrow
      follows the first one. */
  lemma SplitArrowNone(s: string)
    requires SplitArrow(s).None?
    ensures forall i :: OccursAt(s, Arrow, i) && (forall j :: 0 <= j < i ==> !OccursAt(s, Arrow, j)) ==>
      Contains(s[i + |Arrow|..], Arrow)
  {
    forall i | OccursAt(s, Arrow, i) && (forall j :: 0 <= j < i ==> !OccursAt(s, Arrow, j))
      ensures Contains(s[i + |Arrow|..], Arrow)
    {
      var f := Find(s, Arrow, 0);
      assert f.Some?;
      assert f.value == i;
    }
  }

  /** Python's `round(x)` for `x = n / d`: the nearest integer, ties to the even one. */
  function RoundHalfEven(n: int, d: nat): (r: int)
    requires d > 0
    ensures 2 * Abs(n - r * d) <= d
    ensures 2 * Abs(n - r * d) == d ==> r % 2 == 0
  {
    var q := n / d;
    var rem := n % d;
    if 2 * rem < d then q
    else if 2 * rem > d then q + 1
    else if q % 2 == 0 then q
    else q + 1
  }

  function Abs(x: int): nat {
    if x < 0 then -x else x
  }

  /** The nearest-integer property pins the rounding down: any integer within
      half a unit, ties broken to even, is the one `RoundHalfEven` returns. */
  lemma RoundHalfEvenUnique(n: int, d: nat, r: int)
    requires d > 0
    requires 2 * Abs(n - r * d) <= d
    requires 2 * Abs(n - r * d) == d ==> r % 2 == 0
    ensures r == RoundHalfEven(n, d)
  {
    var q, rem := n / d, n % d;
    var k := q - r;
    assert n - r * d == k * d + rem;
    if k >= 1 {
      MulAtLeast(k, d);
      assert false;
    } else if k <= -2 {
      MulAtMost(k, d);
      assert false;
    } else if k == 0 {
      assert r == q && n - r * d == rem;
    } else {
      assert r == q + 1 && n - r * d == rem - d;
    }
  }

  lemma {:induction false} MulAtLeast(k: int, d: nat)
    requires k >= 1
    ensures k * d >= d
    decreases k
  {
    if k > 1 {
      MulAtLeast(k - 1, d);
      assert k * d == (k - 1) * d + d;
    }
  }

  lemma {:induction false} MulAtMost(k: int, d: nat)
    requires k <= -2
    ensures k * d <= -2 * d
    decreases -k
  {
    if k < -2 {
      MulAtMost(k + 1, d);
      assert k * d == (k + 1) * d - d;
    }
  }

  // ---------------------------------------------------------------------
  // Timestamps and frames

  /** `H:M:S,ms` to milliseconds, as lines 120-122 read it: `int()` of each
      field, with the millisecond field counted in thousandths. */
  function TimestampMillis(t: string): (r: Result<int>)
    ensures r.Ok? ==> CountChar(t, ':') == 2 && CountChar(Split(t, ':')[2], ',') == 1
  {
    var parts := Split(t, ':');
    if |parts| != 3 then Err("ValueError: expected 3 fields separated by ':'")
    else
      var sm := Split(parts[2], ',');
      if |sm| != 2 then Err("ValueError: expected seconds,milliseconds")
      else
        var h, m, sec, ms := PyInt(parts[0]), PyInt(parts[1]), PyInt(sm[0]), PyInt(sm[1]);
        if h.Some? && m.Some? && sec.Some? && ms.Some? then
          Ok(Millis(h.value, m.value, sec.value, ms.value))
        else Err("ValueError: invalid literal for int()")
  }

  /** Hours, minutes, seconds and thousandths as a count of milliseconds. */
  function Millis(h: int, m: int, sec: int, ms: int): int {
    h * 3600000 + m * 60000 + sec * 1000 + ms
  }

  /** `int(round(seconds * frame_rate))` with the time in milliseconds. */
  function ToFrames(ms: int, fps: nat): (f: int)
    ensures 2 * Abs(ms * fps - f * 1000) <= 1000
  {
    RoundHalfEven(ms * fps, 1000)
  }

  /** One subtitle as the script holds it: `[timelinePos, duration, text]`. */
  datatype Clip = Clip(position: int, duration: int, text: string)

  /** Block starting at line `i`: line `i + 1` holds the time range, line
      `i + 2` the text. The clip's position is the start frame offset by the
      timeline's first frame, and its duration runs to the end frame measured
      from that offset position. */
  function ParseBlock(lines: seq<string>, i: nat, fps: nat, startFrame: int): (r: Result<Clip>)
    requires i < |lines|
    ensures var arrow := if i + 1 < |lines| then SplitArrow(PyStrip(lines[i + 1])) else None;
      && (r.Ok? <==> i + 2 < |lines| && arrow.Some?
                     && TimestampMillis(arrow.value.0).Ok? && TimestampMillis(arrow.value.1).Ok?)
      && (r.Ok? ==> r.value == ClipAt(TimestampMillis(arrow.value.0).value, TimestampMillis(arrow.value.1).value,
                                      PyStrip(lines[i + 2]), fps, startFrame))
  {
    if i + 1 >= |lines| then Err("IndexError: list index out of range")
    else
      match SplitArrow(PyStrip(lines[i + 1]))
      case None => Err("ValueError: expected start --> end")
      case Some((a, b)) =>
        if i + 2 >= |lines| then Err("IndexError: list index out of range")
        else
          BlockClip(TimestampMillis(a), TimestampMillis(b), PyStrip(lines[i + 2]), fps, startFrame)
  }

  /** The clip of a block from the conversions of its start and end
      timestamps: the start is converted first, so its error is the one
      reported when both fail. */
  function BlockClip(start: Result<int>, end: Result<int>, text: string, fps: nat, startFrame: int): (r: Result<Clip>)
    ensures r.Ok? ==> r.value.text == text
  {
    match start
    case Err(e) => Err(e)
    case Ok(startMs) =>
      match end
      case Err(e) => Err(e)
      case Ok(endMs) => Ok(ClipAt(startMs, endMs, text, fps, startFrame))
  }

  /** The clip of a subtitle from `startMs` to `endMs`: its position is the
      start frame offset by the timeline's first frame, and its duration runs
      to the end frame measured from that offset position. */
  function ClipAt(startMs: int, endMs: int, text: string, fps: nat, startFrame: int): (c: Clip)
    ensures 2 * Abs(startMs * fps - (c.position - startFrame) * 1000) <= 1000
    ensures 2 * Abs(endMs * fps - (c.position + c.duration) * 1000) <= 1000
    ensures c.position == ToFrames(startMs, fps) + startFrame
    ensures c.position + c.duration == ToFrames(endMs, fps)
    ensures c.text == text
  {
    var position := ToFrames(startMs, fps) + startFrame;
    Clip(position, ToFrames(endMs, fps) - position, text)
  }

  /** The outcome of each block the loop `for i in range(0, len(lines), 4)`
      visits, in order: one block for every four lines, the last possibly
      short. */
  function BlockResults(lines: seq<string>, fps: nat, startFrame: int): (rs: seq<Result<Clip>>)
    ensures |rs| == (|lines| + 3) / 4
    ensures forall k :: 0 <= k < |rs| ==> 4 * k < |lines| && rs[k] == ParseBlock(lines, 4 * k, fps, startFrame)
  {
    seq((|lines| + 3) / 4, k requires 0 <= k < (|lines| + 3) / 4 => ParseBlock(lines, 4 * k, fps, startFrame))
  }

  /** The whole SRT parse of lines 114-128: the first block that fails aborts
      the parse. */
  function ParseSrt(lines: seq<string>, fps: nat, startFrame: int): Result<seq<Clip>> {
    Collect(BlockResults(lines, fps, startFrame))
  }

  /** The parse succeeds exactly when every block parses, and then yields one
      clip per four lines (rounded up), clip `k` parsed from lines `4k` to
      `4k + 2`; a final block cut off before its text line makes the whole
      parse fail, so a successful parse had `4n` or `4n - 1` lines. */
  lemma ParseSrtBlocks(lines: seq<string>, fps: nat, startFrame: int)
    ensures ParseSrt(lines, fps, startFrame).Ok? <==>
      forall k :: 0 <= k < (|lines| + 3) / 4 ==> ParseBlock(lines, 4 * k, fps, startFrame).Ok?
    ensures var r := ParseSrt(lines, fps, startFrame);
      r.Ok? ==>
        && |r.value| == (|lines| + 3) / 4
        && (|lines| % 4 == 0 || |lines| % 4 == 3)
        && forall k :: 0 <= k < |r.value| ==> ParseBlock(lines, 4 * k, fps, startFrame) == Ok(r.value[k])
  {
    var rs := BlockResults(lines, fps, startFrame);
    CollectSpec(rs);
    var r := ParseSrt(lines, fps, startFrame);
    if r.Ok? && |lines| > 0 {
      var last := |rs| - 1;
      assert rs[last].Ok?;
      assert 4 * last + 2 < |lines|;
      LastBlockComplete(|lines|);
    }
  }

  lemma LastBlockComplete(n: nat)
    requires n > 0 && 4 * ((n + 3) / 4 - 1) + 2 < n
    ensures n % 4 == 0 || n % 4 == 3
  {
  }

  // ---------------------------------------------------------------------
  // Gap closing (lines 139-142)

  /** Gaps shorter than this many frames are closed. */
  const GapLimit := 200

  /** The duration clip `i` is appended with: when the next clip starts fewer
      than `GapLimit` frames after this one ends, the clip is stretched (or
      cut) to end one frame before the next start. The comparison reads the
      clips as parsed, not as already adjusted. */
  function ClosedDuration(clips: seq<Clip>, i: nat): int
    requires i < |clips|
  {
    if i < |clips| - 1 && clips[i + 1].position - (clips[i].position + clips[i].duration) < GapLimit then
      (clips[i + 1].position - clips[i].position) - 1
    else
      clips[i].duration
  }

  function CloseGaps(clips: seq<Clip>): (r: seq<Clip>)
    ensures |r| == |clips|
    ensures forall i :: 0 <= i < |clips| ==>
      r[i].position == clips[i].position && r[i].text == clips[i].text
  {
    seq(|clips|, i requires 0 <= i < |clips| => clips[i].(duration := ClosedDuration(clips, i)))
  }

  /** The rule, clip by clip: a short gap makes the clip end one frame before
      the next start; otherwise, and always for the last clip, the duration
      is kept. */
  lemma CloseGapsRule(clips: seq<Clip>, i: nat)
    requires i < |clips|
    ensures var r := CloseGaps(clips);
      && (i < |clips| - 1 && clips[i + 1].position - (clips[i].position + clips[i].duration) < GapLimit ==>
            r[i].position + r[i].duration == clips[i + 1].position - 1)
      && (i == |clips| - 1 || clips[i + 1].position - (clips[i].position + clips[i].duration) >= GapLimit ==>
            r[i] == clips[i])
  {
  }

  /** After gap closing every clip ends before the next one starts. */
  lemma CloseGapsNoOverlap(clips: seq<Clip>)
    ensures var r := CloseGaps(clips);
      forall i :: 0 <= i < |r| - 1 ==> r[i].position + r[i].duration < r[i + 1].position
  {
  }

  /** Gap closing is idempotent: a closed gap is one frame wide, so a second
      pass changes nothing. */
  lemma CloseGapsIdempotent(clips: seq<Clip>)
    ensures CloseGaps(CloseGaps(clips)) == CloseGaps(clips)
  {
    var r := CloseGaps(clips);
    var r2 := CloseGaps(r);
    forall i | 0 <= i < |r|
      ensures r2[i] == r[i]
    {
      assert ClosedDuration(r, i) == r[i].duration;
    }
  }

  // ---------------------------------------------------------------------
  // The handler

  /** The SRT file the handler reads: the path typed in the text box when
      "Use Custom Subtitles" is ticked and the box is not empty, otherwise
      `audio.srt` in the script's storage folder. */
  function SrtPath(useCustom: bool, customPath: string, storagePath: string): (p: string)
    ensures useCustom && customPath != "" ==> p == customPath
    ensures !useCustom || customPath == "" ==>
      |p| == |storagePath| + 9 && p[..|storagePath|] == storagePath && p[|storagePath|..] == "audio.srt"
  {
    if useCustom && customPath != "" then customPath else storagePath + "audio.srt"
  }

  /** The current timeline as the handler queries it. */
  datatype Timeline = Timeline(videoTracks: int, fps: nat, startFrame: int)

  /** One `AppendToTimeline` request: the Text+ clip from frame 0 to the
      clip's duration, on the selected track, at the clip's position. */
  datatype Placement = Placement(startFrame: int, endFrame: int, trackIndex: int, recordFrame: int)

  datatype AddOutcome =
    | TrackNotFound
    | SrtNotFound(path: string)
    | ParseFailed(message: string)
    | TextPlusMissing
    | Appended(placements: seq<Placement>, clips: seq<Clip>)

  /** `OnAddSubs` once a timeline is open. `files` maps the paths that exist
      to their contents; `hasTextPlus` says whether the media pool's root
      folder holds a clip named `Text+`. */
  function AddSubs(track: int, useCustom: bool, customPath: string, storagePath: string,
                   files: map<string, string>, timeline: Timeline, hasTextPlus: bool): AddOutcome
  {
    if track > timeline.videoTracks then TrackNotFound
    else
      var path := SrtPath(useCustom, customPath, storagePath);
      if path !in files then SrtNotFound(path)
      else
        match ParseSrt(ReadLines(files[path]), timeline.fps, timeline.startFrame)
        case Err(e) => ParseFailed(e)
        case Ok(clips) =>
          if !hasTextPlus then TextPlusMissing
          else
            var closed := CloseGaps(clips);
            Appended(seq(|closed|, i requires 0 <= i < |closed| =>
                       Placement(0, closed[i].duration, track, closed[i].position)), closed)
  }

  /** What the handler promises: a track beyond the timeline's video tracks
      stops it before anything else; otherwise the custom path is read only
      when ticked and non-empty; every appended clip goes on the selected
      track, starts at its clip's position, and ends before the next one
      starts. */
  lemma AddSubsOutcome(track: int, useCustom: bool, customPath: string, storagePath: string,
                       files: map<string, string>, timeline: Timeline, hasTextPlus: bool)
    ensures var r, path := AddSubs(track, useCustom, customPath, storagePath, files, timeline, hasTextPlus),
                         SrtPath(useCustom, customPath, storagePath);
      var parsed := if path in files then ParseSrt(ReadLines(files[path]), timeline.fps, timeline.startFrame)
                    else Err("");
      && (r.TrackNotFound? <==> track > timeline.videoTracks)
      && (r.SrtNotFound? <==> track <= timeline.videoTracks && path !in files)
      && (r.SrtNotFound? ==> r.path == path)
      && (r.ParseFailed? <==> track <= timeline.videoTracks && path in files && parsed.Err?)
      && (r.ParseFailed? ==> r.message == parsed.message)
      && (r.TextPlusMissing? <==> track <= timeline.videoTracks && path in files && parsed.Ok? && !hasTextPlus)
      && (r.Appended? <==> track <= timeline.videoTracks && path in files && parsed.Ok? && hasTextPlus)
      && (r.Appended? ==>
            && r.clips == CloseGaps(parsed.value)
            && |r.placements| == |r.clips|
            && (forall i :: 0 <= i < |r.placements| ==>
                  r.placements[i].trackIndex == track && r.placements[i].startFrame == 0
                  && r.placements[i].recordFrame == r.clips[i].position
                  && r.placements[i].endFrame == r.clips[i].duration)
            && (forall i :: 0 <= i < |r.placements| - 1 ==>
                  r.placements[i].recordFrame + r.placements[i].endFrame < r.placements[i + 1].recordFrame))
  {
    var r := AddSubs(track, useCustom, customPath, storagePath, files, timeline, hasTextPlus);
    if r.Appended? {
      var path := SrtPath(useCustom, customPath, storagePath);
      var clips := ParseSrt(ReadLines(files[path]), timeline.fps, timeline.startFrame).value;
      CloseGapsNoOverlap(clips);
    }
  }
}

=== FILE: Text.dfy ===
/**
 String helpers shared by the model: the character classes of JavaScript's
 `\s` / `String.prototype.trim` and of Python's `str.strip`, substring search,
 splitting on one character, decimal rendering and parsing of naturals, and
 zero padding in the manner of `padStart`. Strings are `seq<char>`.
 */
module Text {

  predicate IsDigit(c: char) {
    '0' <= c <= '9'
  }

  predicate AllDigits(s: string) {
    forall i :: 0 <= i < |s| ==> IsDigit(s[i])
  }

  /** JavaScript's WhiteSpace and LineTerminator classes: the set matched by
      `\s` in a regular expression and removed by `trim()`. */
  predicate IsJsSpace(c: char) {
    || c == '\t' || c == '\n' || c == '\U{B}' || c == '\U{C}' || c == '\r'
    || c == ' ' || c == '\U{A0}' || c == '\U{1680}'
    || ('\U{2000}' <= c <= '\U{200A}')
    || c == '\U{2028}' || c == '\U{2029}' || c == '\U{202F}' || c == '\U{205F}'
    || c == '\U{3000}' || c == '\U{FEFF}'
  }

  /** JavaScript's LineTerminator class: the characters `.` does not match. */
  predicate IsLineTerminator(c: char) {
    c == '\n' || c == '\r' || c == '\U{2028}' || c == '\U{2029}'
  }

  /** The characters Python's `str.isspace` accepts, which `str.strip()` removes. */
  predicate IsPySpace(c: char) {
    || c == '\t' || c == '\n' || c == '\U{B}' || c == '\U{C}' || c == '\r'
    || ('\U{1C}' <= c <= '\U{1F}')
    || c == ' ' || c == '\U{85}' || c == '\U{A0}' || c == '\U{1680}'
    || ('\U{2000}' <= c <= '\U{200A}')
    || c == '\U{2028}' || c == '\U{2029}' || c == '\U{202F}' || c == '\U{205F}'
    || c == '\U{3000}'
  }

  /** The longest suffix of `s` that does not start with a character satisfying `p`. */
  function DropWhile(s: string, p: char -> bool): string {
    if |s| > 0 && p(s[0]) then DropWhile(s[1..], p) else s
  }

  lemma {:induction false} DropWhileSpec(s: string, p: char -> bool)
    ensures var r := DropWhile(s, p);
      && |r| <= |s| && r == s[|s| - |r|..]
      && (forall i :: 0 <= i < |s| - |r| ==> p(s[i]))
      && (|r| > 0 ==> !p(r[0]))
  {
    if |s| > 0 && p(s[0]) {
      DropWhileSpec(s[1..], p);
    }
  }

  /** The longest prefix of `s` that does not end with a character satisfying `p`. */
  function DropWhileEnd(s: string, p: char -> bool): string {
    if |s| > 0 && p(s[|s| - 1]) then DropWhileEnd(s[..|s| - 1], p) else s
  }

  lemma {:induction false} DropWhileEndSpec(s: string, p: char -> bool)
    ensures var r := DropWhileEnd(s, p);
      && |r| <= |s| && r == s[..|r|]
      && (forall i :: |r| <= i < |s| ==> p(s[i]))
      && (|r| > 0 ==> !p(r[|r| - 1]))
  {
    if |s| > 0 && p(s[|s| - 1]) {
      DropWhileEndSpec(s[..|s| - 1], p);
    }
  }

  /** Removes every leading and trailing character satisfying `p`. */
  function Strip(s: string, p: char -> bool): string {
    DropWhileEnd(DropWhile(s, p), p)
  }

  /** What is left after stripping is a contiguous slice of `s`, starting at
      the returned index, whose ends do not satisfy `p`. */
  lemma StripSlice(s: string, p: char -> bool) returns (i: nat)
    ensures StrippedAt(s, p, Strip(s, p), i)
    ensures var r := Strip(s, p);
      |r| > 0 ==> !p(r[0]) && !p(r[|r| - 1])
  {
    var a := DropWhile(s, p);
    DropWhileSpec(s, p);
    DropWhileEndSpec(a, p);
    i := |s| - |a|;
  }

  /** Stripping a string whose ends do not satisfy `p` leaves it whole. */
  lemma StripFixed(s: string, p: char -> bool)
    requires |s| > 0 ==> !p(s[0]) && !p(s[|s| - 1])
    ensures Strip(s, p) == s
  {
    assert DropWhile(s, p) == s;
    assert DropWhileEnd(s, p) == s;
  }

  /** Appending a character that `p` strips does not change the stripped
      string. */
  lemma StripAppend(x: string, c: char, p: char -> bool)
    requires p(c)
    ensures Strip(x + [c], p) == Strip(x, p)
  {
    DropWhileAppend(x, c, p);
    var a := DropWhile(x, p);
    if |a| > 0 {
      assert (a + [c])[..|a|] == a;
    } else {
      assert DropWhile([c], p) == DropWhile([c][1..], p);
    }
  }

  lemma {:induction false} DropWhileAppend(x: string, c: char, p: char -> bool)
    ensures DropWhile(x + [c], p) ==
      if |DropWhile(x, p)| > 0 then DropWhile(x, p) + [c] else DropWhile([c], p)
  {
    if |x| == 0 {
      assert x + [c] == [c];
    } else if p(x[0]) {
      DropWhileAppend(x[1..], c, p);
      assert (x + [c])[1..] == x[1..] + [c];
    }
  }

  /** Stripping keeps the text a slice of the original, so it adds no character. */
  lemma StripAvoids(s: string, p: char -> bool, c: char)
    requires c !in s
    ensures c !in Strip(s, p)
  {
    var r := Strip(s, p);
    var i := StripSlice(s, p);
    forall k | 0 <= k < |r|
      ensures r[k] != c
    {
      assert r[k] == s[i + k];
    }
  }

  /** `r` is the slice of `s` starting at `i`, and everything of `s` outside
      that slice satisfies `p`. */
  predicate StrippedAt(s: string, p: char -> bool, r: string, i: int) {
    && 0 <= i <= |s| - |r|
    && r == s[i..i + |r|]
    && (forall k :: 0 <= k < i ==> p(s[k]))
    && (forall k :: i + |r| <= k < |s| ==> p(s[k]))
  }

  /** `String.prototype.trim`. */
  function Trim(s: string): string {
    Strip(s, IsJsSpace)
  }

  /** Python's `str.strip()` with no argument. */
  function PyStrip(s: string): string {
    Strip(s, IsPySpace)
  }

  /** `pat` occurs in `s` starting at index `i`. */
  predicate OccursAt(s: string, pat: string, i: int) {
    0 <= i && i + |pat| <= |s| && s[i..i + |pat|] == pat
  }

  /** `String.prototype.includes` / Python's `in` on strings. */
  function Contains(s: string, pat: string): (r: bool)
    ensures r <==> exists i :: OccursAt(s, pat, i)
  {
    if |s| < |pat| then
      false
    else if s[..|pat|] == pat then
      assert OccursAt(s, pat, 0);
      true
    else
      var r := Contains(s[1..], pat);
      if r then
        var i :| OccursAt(s[1..], pat, i);
        assert s[1..][i..i + |pat|] == s[i + 1..i + 1 + |pat|];
        assert OccursAt(s, pat, i + 1);
        true
      else
        assert !OccursAt(s, pat, 0);
        forall i | 0 < i && OccursAt(s, pat, i)
          ensures OccursAt(s[1..], pat, i - 1)
        {
          assert s[1..][i - 1..i - 1 + |pat|] == s[i..i + |pat|];
        }
        false
  }

  /** Splits `s` at every occurrence of `sep`, like `split(',')` in JavaScript
      and Python: one more part than there are separators, none of them
      containing the separator. */
  function Split(s: string, sep: char): (parts: seq<string>)
    ensures |parts| == CountChar(s, sep) + 1
    ensures forall k :: 0 <= k < |parts| ==> sep !in parts[k]
    decreases |s|
  {
    if sep !in s then
      CountAbsent(s, sep);
      [s]
    else
      var i := IndexOfChar(s, sep);
      CountSplit(s, sep, i);
      [s[..i]] + Split(s[i + 1..], sep)
  }

  /** Joins `parts` with `sep` between consecutive parts, like `Array.prototype.join`. */
  function Join(parts: seq<string>, sep: string): string {
    if |parts| == 0 then []
    else if |parts| == 1 then parts[0]
    else parts[0] + sep + Join(parts[1..], sep)
  }

  function CountChar(s: string, c: char): nat {
    if |s| == 0 then 0 else (if s[0] == c then 1 else 0) + CountChar(s[1..], c)
  }

  /** The index of the first `c` in `s`. */
  function IndexOfChar(s: string, c: char): (i: nat)
    requires c in s
    ensures i < |s| && s[i] == c && c !in s[..i]
  {
    if s[0] == c then 0 else IndexOfChar(s[1..], c) + 1
  }

  /** The first occurrence is the one `IndexOfChar` finds. */
  lemma IndexOfCharIs(s: string, c: char, j: nat)
    requires j < |s| && s[j] == c && c !in s[..j]
    ensures IndexOfChar(s, c) == j
  {
  }

  /** Dropping a prefix of the left operand of a concatenation. */
  lemma DropAppend<T>(a: seq<T>, b: seq<T>, n: nat)
    requires n <= |a|
    ensures (a + b)[n..] == a[n..] + b
  {
  }

  lemma ConcatAssoc<T>(x: seq<T>, y: seq<T>, z: seq<T>)
    ensures x + (y + z) == x + y + z
  {
  }

  lemma {:induction false} CountAppend(a: string, b: string, c: char)
    ensures CountChar(a + b, c) == CountChar(a, c) + CountChar(b, c)
  {
    if |a| > 0 {
      assert (a + b)[1..] == a[1..] + b;
      CountAppend(a[1..], b, c);
    } else {
      assert a + b == b;
    }
  }

  lemma {:induction false} CountAbsent(s: string, c: char)
    requires c !in s
    ensures CountChar(s, c) == 0
  {
    if |s| > 0 {
      assert c !in s[1..];
      CountAbsent(s[1..], c);
    }
  }

  lemma CountSplit(s: string, c: char, i: nat)
    requires i < |s| && s[i] == c && c !in s[..i]
    ensures CountChar(s, c) == CountChar(s[i + 1..], c) + 1
  {
    assert s == s[..i] + [c] + s[i + 1..];
    CountAppend(s[..i] + [c], s[i + 1..], c);
    CountAppend(s[..i], [c], c);
    CountAbsent(s[..i], c);
  }

  /** Splitting on a character and joining with it again gives back the string. */
  lemma {:induction false} JoinSplit(s: string, sep: char)
    ensures Join(Split(s, sep), [sep]) == s
    decreases |s|
  {
    if sep in s {
      var i := IndexOfChar(s, sep);
      var rest := Split(s[i + 1..], sep);
      JoinSplit(s[i + 1..], sep);
      assert Split(s, sep) == [s[..i]] + rest;
      assert s == s[..i] + [sep] + s[i + 1..];
    }
  }

  function DigitChar(d: nat): (c: char)
    requires d < 10
    ensures IsDigit(c)
  {
    ['0', '1', '2', '3', '4', '5', '6', '7', '8', '9'][d]
  }

  function DigitValue(c: char): (d: nat)
    requires IsDigit(c)
    ensures d < 10 && DigitChar(d) == c
  {
    (c as int - '0' as int) as nat
  }

  /** The value of a decimal digit string, most significant digit first, as
      `parseInt(s, 10)` and Python's `int(s)` read it. */
  function DigitsValue(s: string): nat
    requires AllDigits(s)
  {
    if |s| == 0 then 0 else DigitsValue(s[..|s| - 1]) * 10 + DigitValue(s[|s| - 1])
  }

  /** `n.toString()`: the shortest decimal rendering of `n`. */
  function NatToString(n: nat): (r: string)
    ensures |r| > 0 && AllDigits(r)
    ensures |r| > 1 ==> r[0] != '0'
  {
    if n < 10 then [DigitChar(n)] else NatToString(n / 10) + [DigitChar(n % 10)]
  }

  /** Reading back a rendered natural gives the natural. */
  lemma {:induction false} NatToStringRoundTrip(n: nat)
    ensures DigitsValue(NatToString(n)) == n
  {
    var r := NatToString(n);
    if n >= 10 {
      assert r[..|r| - 1] == NatToString(n / 10);
      NatToStringRoundTrip(n / 10);
    }
  }

  function Repeat(c: char, k: nat): (r: string)
    ensures |r| == k && forall i :: 0 <= i < k ==> r[i] == c
  {
    if k == 0 then [] else [c] + Repeat(c, k - 1)
  }

  /** `s.padStart(width, c)` for a one-character pad string: never truncates. */
  function PadStart(s: string, width: nat, c: char): (r: string)
    ensures |r| == if |s| >= width then |s| else width
    ensures r == Repeat(c, |r| - |s|) + s
  {
    if |s| >= width then
      assert Repeat(c, 0) + s == s;
      s
    else Repeat(c, width - |s|) + s
  }

  /** `n.toString().padStart(width, '0')`. */
  function PadNat(n: nat, width: nat): (r: string)
    ensures AllDigits(r) && |r| >= width && |r| >= 1
  {
    PadStart(NatToString(n), width, '0')
  }

  function Pow10(k: nat): (p: nat)
    ensures p >= 1
  {
    if k == 0 then 1 else 10 * Pow10(k - 1)
  }

  /** A natural below `10^k` renders in at most `k` digits. */
  lemma {:induction false} NatToStringLength(n: nat, k: nat)
    requires 1 <= k && n < Pow10(k)
    ensures |NatToString(n)| <= k
  {
    if n >= 10 {
      assert Pow10(1) == 10;
      assert k >= 2;
      assert n / 10 < Pow10(k - 1);
      NatToStringLength(n / 10, k - 1);
    }
  }

  /** Zero padding never changes the value read back, and a value below
      `10^width` is padded to exactly `width` digits. */
  lemma PadNatProperties(n: nat, width: nat)
    ensures DigitsValue(PadNat(n, width)) == n
    ensures 1 <= width && n < Pow10(width) ==> |PadNat(n, width)| == width
  {
    var s := NatToString(n);
    NatToStringRoundTrip(n);
    LeadingZeros(Repeat('0', |PadNat(n, width)| - |s|), s);
    if 1 <= width && n < Pow10(width) {
      NatToStringLength(n, width);
    }
  }

  lemma {:induction false} ZerosValue(z: string)
    requires forall i :: 0 <= i < |z| ==> z[i] == '0'
    ensures AllDigits(z) && DigitsValue(z) == 0
  {
    if |z| > 0 {
      ZerosValue(z[..|z| - 1]);
    }
  }

  lemma {:induction false} LeadingZeros(z: string, s: string)
    requires forall i :: 0 <= i < |z| ==> z[i] == '0'
    requires AllDigits(s)
    ensures AllDigits(z + s) && DigitsValue(z + s) == DigitsValue(s)
    decreases |s|
  {
    if |s| == 0 {
      assert z + s == z;
      ZerosValue(z);
    } else {
      assert (z + s)[..|z + s| - 1] == z + s[..|s| - 1];
      LeadingZeros(z, s[..|s| - 1]);
    }
  }

  /** ASCII `toLowerCase` (letters outside A-Z are left as they are). */
  function ToLowerChar(c: char): (r: char)
    ensures !('A' <= r <= 'Z')
    ensures !('A' <= c <= 'Z') ==> r == c
  {
    if 'A' <= c <= 'Z' then (c as int - 'A' as int + 'a' as int) as char else c
  }

  function ToLower(s: string): (r: string)
    ensures |r| == |s| && forall i :: 0 <= i < |s| ==> r[i] == ToLowerChar(s[i])
  {
    if |s| == 0 then [] else [ToLowerChar(s[0])] + ToLower(s[1..])
  }

  /** A character in neither the parts nor the separator is not in their join. */
  lemma {:induction false} JoinAvoids(parts: seq<string>, sep: string, c: char)
    requires c !in sep
    requires forall k :: 0 <= k < |parts| ==> c !in parts[k]
    ensures c !in Join(parts, sep)
  {
    if |parts| > 1 {
      JoinAvoids(parts[1..], sep, c);
      assert c !in parts[0];
    }
  }

  /** The parts of every group, in order. */
  function Flatten<T>(groups: seq<seq<T>>): seq<T> {
    if |groups| == 0 then [] else groups[0] + Flatten(groups[1..])
  }

  /** Each group joined on its own. */
  function JoinEach(groups: seq<seq<string>>, sep: string): (r: seq<string>)
    ensures |r| == |groups| && forall i :: 0 <= i < |groups| ==> r[i] == Join(groups[i], sep)
  {
    seq(|groups|, i requires 0 <= i < |groups| => Join(groups[i], sep))
  }

  lemma {:induction false} JoinAppend(a: seq<string>, b: seq<string>, sep: string)
    requires |a| > 0 && |b| > 0
    ensures Join(a + b, sep) == Join(a, sep) + sep + Join(b, sep)
    decreases |a|
  {
    if |a| > 1 {
      assert (a + b)[1..] == a[1..] + b;
      JoinAppend(a[1..], b, sep);
    } else {
      assert (a + b)[1..] == b;
    }
  }

  /** Joining the joined groups is joining all their parts, when no group is empty. */
  lemma {:induction false} JoinFlatten(groups: seq<seq<string>>, sep: string)
    requires forall i :: 0 <= i < |groups| ==> |groups[i]| > 0
    ensures Join(JoinEach(groups, sep), sep) == Join(Flatten(groups), sep)
    decreases |groups|
  {
    if |groups| > 1 {
      var rest := groups[1..];
      assert JoinEach(groups, sep)[1..] == JoinEach(rest, sep);
      JoinFlatten(rest, sep);
      FlattenNonEmpty(rest);
      JoinAppend(groups[0], Flatten(rest), sep);
    } else if |groups| == 1 {
      assert Flatten(groups) == groups[0] + Flatten(groups[1..]);
      assert groups[0] + [] == groups[0];
    }
  }

  lemma FlattenNonEmpty<T>(groups: seq<seq<T>>)
    requires |groups| > 0 && |groups[0]| > 0
    ensures |Flatten(groups)| > 0
  {
  }

  /** Joining parts that hold no separator and splitting again gives the parts back. */
  lemma {:induction false} SplitJoin(parts: seq<string>, sep: char)
    requires |parts| > 0
    requires forall k :: 0 <= k < |parts| ==> sep !in parts[k]
    ensures Split(Join(parts, [sep]), sep) == parts
    decreases |parts|
  {
    if |parts| > 1 {
      var rest := Join(parts[1..], [sep]);
      assert Join(parts, [sep]) == parts[0] + [sep] + rest;
      SplitCons(parts[0], rest, sep);
      SplitJoin(parts[1..], sep);
    }
  }

  /** The first part of a split runs up to the first separator. */
  lemma SplitCons(x: string, rest: string, sep: char)
    requires sep !in x
    ensures Split(x + [sep] + rest, sep) == [x] + Split(rest, sep)
  {
    var s := x + [sep] + rest;
    assert s[..|x|] == x;
    IndexOfCharIs(s, sep, |x|);
    assert s[|x| + 1..] == rest;
  }

  lemma SplitThree(x: string, y: string, z: string, sep: char)
    requires sep !in x && sep !in y && sep !in z
    ensures Split(x + [sep] + y + [sep] + z, sep) == [x, y, z]
  {
    assert Join([x, y, z], [sep]) == x + [sep] + y + [sep] + z by {
      assert Join([z], [sep]) == z;
      assert [x, y, z][1..] == [y, z];
      assert [y, z][1..] == [z];
    }
    SplitJoin([x, y, z], sep);
  }

  lemma SplitTwo(x: string, y: string, sep: char)
    requires sep !in x && sep !in y
    ensures Split(x + [sep] + y, sep) == [x, y]
  {
    assert Join([x, y], [sep]) == x + [sep] + y by {
      assert [x, y][1..] == [y];
    }
    SplitJoin([x, y], sep);
  }

  /** A character absent from every part of every group is absent from every
      part of the flattened list. */
  lemma {:induction false} FlattenAvoids(groups: seq<seq<string>>, c: char)
    requires forall k, j :: 0 <= k < |groups| && 0 <= j < |groups[k]| ==> c !in groups[k][j]
    ensures forall i :: 0 <= i < |Flatten(groups)| ==> c !in Flatten(groups)[i]
    decreases |groups|
  {
    if |groups| > 0 {
      FlattenAvoids(groups[1..], c);
      assert Flatten(groups) == groups[0] + Flatten(groups[1..]);
    }
  }
}

=== FILE: Transcript.dfy ===
/**
 The per-timeline transcript document and the two edits the desktop app makes
 to it: the partial merge `updateTranscript` and the speaker relabel
 `updateSpeaker` (AutoSubs-App/src/GlobalContext.tsx). The file read and write
 around the merge are left to the caller: the merge takes the document as it
 was read (`None` when the file is absent or unreadable) and returns what is
 written.
 */
module Transcript {
  import opened Options

  /** A subtitle time as the app holds it: a number of milliseconds, or the
      empty string the live preview puts there, which `Number("")` reads as 0. */
  datatype Time = Unset | At(ms: nat) {
    function Millis(): nat {
      match this
      case Unset => 0
      case At(ms) => ms
    }
  }

  datatype Subtitle = Subtitle(start: Time, end: Time, text: string, speaker: string)

  /** `name` is the source's `label` field (`label` is a Dafny keyword). */
  datatype Speaker = Speaker(id: string, name: string, color: string, style: string)

  datatype TopSpeaker = TopSpeaker(id: string, name: string, percentage: int)

  /** The JSON document `<timeline>.json`. `other` stands for every key the app
      does not interpret; the merge must carry it through untouched. */
  datatype Transcript = Transcript(
    markIn: int,
    segments: seq<Subtitle>,
    speakers: seq<Speaker>,
    topSpeaker: TopSpeaker,
    other: map<string, string>)

  /** The optional arguments of `updateTranscript`. A present but empty list is
      still present: JavaScript treats `[]` as truthy. */
  datatype Patch = Patch(
    speakers: Option<seq<Speaker>>,
    topSpeaker: Option<TopSpeaker>,
    segments: Option<seq<Subtitle>>)
  {
    /** The early return: neither speakers nor segments given. */
    predicate IsNoOp() {
      speakers.None? && segments.None?
    }
  }

  /** What a merge does to the file: nothing at all, a rewrite with the given
      document, or the failure of dereferencing a document that was not read. */
  datatype MergeOutcome = Skipped | Written(doc: Transcript) | MissingDocument

  /** Field `f` of the result is the patch's value when the patch supplies it
      and the stored value otherwise. */
  predicate Patched<T(==)>(patchValue: Option<T>, stored: T, result: T) {
    result == (if patchValue.Some? then patchValue.value else stored)
  }

  /** `updateTranscript(speakers?, topSpeaker?, subtitles?)` applied to the
      document read from disk. */
  function UpdateTranscript(stored: Option<Transcript>, patch: Patch): (r: MergeOutcome)
    ensures r.Skipped? <==> patch.IsNoOp()
    ensures r.MissingDocument? <==> !patch.IsNoOp() && stored.None?
    ensures r.Written? ==>
      && stored.Some?
      && r.doc.markIn == stored.value.markIn
      && r.doc.other == stored.value.other
      && Patched(patch.speakers, stored.value.speakers, r.doc.speakers)
      && Patched(patch.topSpeaker, stored.value.topSpeaker, r.doc.topSpeaker)
      && Patched(patch.segments, stored.value.segments, r.doc.segments)
  {
    if patch.IsNoOp() then
      Skipped
    else if stored.None? then
      MissingDocument
    else
      var t := stored.value;
      var t1 := if patch.topSpeaker.Some? then t.(topSpeaker := patch.topSpeaker.value) else t;
      var t2 := if patch.speakers.Some? then t1.(speakers := patch.speakers.value) else t1;
      var t3 := if patch.segments.Some? then t2.(segments := patch.segments.value) else t2;
      Written(t3)
  }

  /** Merging the same patch into the document it produced writes that
      document again unchanged. */
  lemma UpdateTranscriptIdempotent(stored: Transcript, patch: Patch)
    requires !patch.IsNoOp()
    ensures UpdateTranscript(Some(UpdateTranscript(Some(stored), patch).doc), patch)
         == UpdateTranscript(Some(stored), patch)
  {
  }

  /** The later patch wins field by field: two merges in a row equal one merge
      of the combined patch. */
  function Combine(first: Patch, second: Patch): Patch {
    Patch(
      if second.speakers.Some? then second.speakers else first.speakers,
      if second.topSpeaker.Some? then second.topSpeaker else first.topSpeaker,
      if second.segments.Some? then second.segments else first.segments)
  }

  lemma UpdateTranscriptCompose(stored: Transcript, first: Patch, second: Patch)
    requires !first.IsNoOp() && !second.IsNoOp()
    ensures UpdateTranscript(Some(UpdateTranscript(Some(stored), first).doc), second)
         == UpdateTranscript(Some(stored), Combine(first, second))
  {
  }

  /** The in-memory state `updateSpeaker` reads and writes, together with the
      document the merge it triggers will read. */
  datatype EditorState = EditorState(
    speakers: seq<Speaker>,
    topSpeaker: TopSpeaker,
    stored: Option<Transcript>)

  datatype SpeakerEdit = SpeakerEdit(speakers: seq<Speaker>, topSpeaker: TopSpeaker, merge: MergeOutcome)

  /** `updateSpeaker(index, label, color, style)`: relabels one speaker, keeps
      the top speaker's label in step when it is that speaker, and merges the
      new speakers and top speaker into the document. An index outside the
      list fails as reading `.id` of `undefined` does. */
  function UpdateSpeaker(s: EditorState, index: int, name: string, color: string, style: string)
    : (r: Result<SpeakerEdit>)
    ensures r.Err? <==> !(0 <= index < |s.speakers|)
    ensures r.Ok? ==>
      && |r.value.speakers| == |s.speakers|
      && r.value.speakers[index] == Speaker(s.speakers[index].id, name, color, style)
      && (forall k :: 0 <= k < |s.speakers| && k != index ==> r.value.speakers[k] == s.speakers[k])
      && r.value.topSpeaker.id == s.topSpeaker.id
      && r.value.topSpeaker.percentage == s.topSpeaker.percentage
      && (r.value.topSpeaker.name == name <== s.topSpeaker.id == s.speakers[index].id)
      && (s.topSpeaker.id != s.speakers[index].id ==> r.value.topSpeaker == s.topSpeaker)
      && r.value.merge == UpdateTranscript(s.stored, Patch(Some(r.value.speakers), Some(r.value.topSpeaker), None))
  {
    if !(0 <= index < |s.speakers|) then
      Err("Cannot read properties of undefined (reading 'id')")
    else
      var top := if s.topSpeaker.id == s.speakers[index].id then s.topSpeaker.(name := name) else s.topSpeaker;
      var speakers := s.speakers[index := s.speakers[index].(name := name, color := color, style := style)];
      Ok(SpeakerEdit(speakers, top, UpdateTranscript(s.stored, Patch(Some(speakers), Some(top), None))))
  }

  /** Speaker ids are distinct. */
  predicate UniqueIds(speakers: seq<Speaker>) {
    forall i, j :: 0 <= i < j < |speakers| ==> speakers[i].id != speakers[j].id
  }

  /** The top speaker's label is the label of the speaker carrying its id. */
  predicate TopInSync(speakers: seq<Speaker>, top: TopSpeaker) {
    forall i :: 0 <= i < |speakers| && speakers[i].id == top.id ==> speakers[i].name == top.name
  }

  /** A relabel keeps the ids distinct and the top speaker's label in step
      with its speaker, and the document it writes satisfies the same. */
  lemma UpdateSpeakerKeepsInvariant(s: EditorState, index: int, name: string, color: string, style: string)
    requires UniqueIds(s.speakers) && TopInSync(s.speakers, s.topSpeaker)
    requires 0 <= index < |s.speakers|
    ensures var r := UpdateSpeaker(s, index, name, color, style).value;
      && UniqueIds(r.speakers) && TopInSync(r.speakers, r.topSpeaker)
      && (r.merge.Written? ==> r.merge.doc.speakers == r.speakers && r.merge.doc.topSpeaker == r.topSpeaker)
  {
    var r := UpdateSpeaker(s, index, name, color, style).value;
    forall i | 0 <= i < |r.speakers| && r.speakers[i].id == r.topSpeaker.id
      ensures r.speakers[i].name == r.topSpeaker.name
    {
      if i != index && s.topSpeaker.id == s.speakers[index].id {
        assert false;
      }
    }
  }

  /** Relabelling a speaker never touches the segments or mark-in on disk. */
  lemma UpdateSpeakerKeepsSegments(s: EditorState, index: int, name: string, color: string, style: string)
    requires s.stored.Some? && 0 <= index < |s.speakers|
    ensures var r := UpdateSpeaker(s, index, name, color, style).value;
      && r.merge.Written?
      && r.merge.doc.segments == s.stored.value.segments
      && r.merge.doc.markIn == s.stored.value.markIn
  {
  }
}
